=== FILE: README.md ===
# File read/write tools, modelled in Dafny

This project models the two file tools an agent uses to inspect and edit
files in its workspace (`tools/test_write_tool.py`):

- **path confinement** (`_resolve_safe`): the caller's path is resolved
  against the workspace root. It is accepted only when the result is the
  root itself or lies below it.
- **`read_file`**: reads a whole file. It splits the file into lines and
  clamps the requested range into the file. It returns that slice, with or
  without line numbers, plus the line count and the digest of the whole file.
- **`write_file`**: the edit engine, in this order:
  - it checks the mode-specific argument rules (`_validate_mode_fields`);
  - it reads the current text (`""` for a missing file);
  - it applies the optimistic lock, which refuses a stale base digest;
  - it runs one of four modes: `overwrite`, `append`, `insert_after_line`
    or `replace_range`, each with its edit summary;
  - it returns a no-op when the text is unchanged;
  - otherwise it writes the `.bak` backup of the old text before the new
    text.

The modules follow that structure:

| file | module | contents |
|---|---|---|
| `py_semantics.dfy` | `PySemantics` | the Python idioms the tools rely on: `x or d`, `max(1, min(n, x))`, `range`, slice assignment |
| `text.dfy` | `Text` | reading with universal newlines, splitting and joining on a separator, `splitlines`, `str.count`, decimal rendering of integers |
| `paths.dfy` | `Paths` | lexical path resolution, the containment check, `relative_to`, the backup path |
| `edits.dfy` | `Edits` | the four text transforms and their summaries |
| `read_file.dfy` | `ReadTool` | `read_file` |
| `write_file.dfy` | `WriteTool` | validation, lock, no-op, backup ordering, `write_file` |
| `scenarios.dfy` | `Scenarios` | end-to-end calls of each mode and of a read, and the corner cases of the line arithmetic |

Modelling choices:

- The filesystem is a map from resolved paths to file texts. A path is its
  list of segments from `/`.
- Texts are stored as written. Reading (`_read_text`, `Path.read_text`)
  turns each `\r\n` and each lone `\r` into `\n` (`Text.Universal`). Both
  tools work on the text as read, and hash it as read.
- The `content` argument is not read from disk. Its `splitlines()`
  breaks at `\r\n` and at a lone `\r` as well as at `\n`
  (`Text.SplitLines`), while the kept final newline looks only at its
  raw last character.
- The SHA-256 digest is a function parameter. The proofs only use digest
  equality.
- `write_file` does not change the map directly. It returns its result
  together with the list of whole-file writes it performs, in order.
  `WriteTool.Commit` applies such a list.
  - This makes "backup before target" a statement about every prefix of the
    list, i.e. about every point where the process could stop.

At these points the code's behaviour is easy to misread, and the model follows the code:

- `insert_after_line` puts the block directly after the clamped target
  line (`lines[k:k] = block` with `k` the clamped line number). It does not
  land one line further. A line past the end therefore appends the block.
- `_validate_mode_fields` only checks that the mode's line numbers are
  present and non-zero. Nothing rejects `end_line < start_line`.
  - When the clamped end precedes the clamped start, the slice is empty.
    The replacement is inserted before the start line and nothing is
    deleted (`Scenarios.ReversedRangeValid`, `Scenarios.ReversedRange`).
  - When both bounds lie at or past the last line, both clamp to it. The
    last line is replaced, while the summary is empty
    (`Scenarios.ReversedPastEnd`).
- The `overwrite` summary numbers the content's lines with `range(1,
  count("\n") + 2)`. This gives one extra number when the content is empty
  or ends in a newline.
- The `overwrite` and `append` summaries count `\n` alone, while
  `splitlines` and reading also break at a lone `\r`. Content `a\rb` is
  written as a file that reads as two lines, yet either summary names
  line 1 only (`Scenarios.CarriageReturnSummaryUndercounts`).
- The `replace_range` summary is `range(start, end + 1)`, computed from the
  unclamped request. A reversed range gives an empty summary.
- A carriage return in the content ends a line for `splitlines` but is no
  newline for the kept terminator. Replacing line 2 of `a\nb` by `b\r`
  therefore writes `a\nb` again: a no-op
  (`Scenarios.CarriageReturnReplaceIsNoOp`).

## Model

| member | source | states |
|---|---|---|
| PySemantics.ClampLine | tools/test_write_tool.py:127 | the clamped line is at least 1 and at most the line count of a non-empty file. A line inside the file is unchanged; one past the end becomes the last line; one below 1 becomes 1; with no lines at all the result is 1 |
| PySemantics.Truthy | tools/test_write_tool.py:89-91 | no contract of its own; see `WriteTool.ValidateModeFields` and `Scenarios.ZeroLineIsMissing` |
| PySemantics.TruthyText | tools/test_write_tool.py:172 | no contract of its own; see `WriteTool.LockNeedsFileAndDigest`, where an empty base digest never conflicts |
| PySemantics.OrElse | tools/test_write_tool.py:206 | no contract of its own; see `Scenarios.ZeroLineIsMissing`, where 0 counts as missing, and `ReadTool.ReadBoundsHonoursRequest` |
| PySemantics.Range | tools/test_write_tool.py:188 | `list(range(a, b))`: `b - a` numbers counting up from `a`, or none when `b <= a` |
| PySemantics.SliceAssign | tools/test_write_tool.py:208 | `xs[lo:hi] = ys`: the prefix before the cut bound is kept, followed by `ys`, followed by the suffix after the end bound. The end bound never falls before the start, so a reversed slice inserts |
| PySemantics.SliceInsertRestores | tools/test_write_tool.py:208 | inserting into an empty slice only adds: removing the inserted run gives the original list back |
| Text.Universal | tools/test_write_tool.py:56-57 | the text as read holds no carriage return, and it is empty exactly when the stored text is |
| Text.UniversalKeepsPlain | tools/test_write_tool.py:56-57 | a stored text reads back unchanged exactly when it holds no carriage return |
| Text.SplitAt | tools/test_write_tool.py:111 | splitting yields one more piece than there are separators, and no piece holds a separator |
| Text.JoinSplitAt | tools/test_write_tool.py:209 | joining the pieces of a split with the separator gives the text back |
| Text.SplitAtJoin | tools/test_write_tool.py:209 | splitting a join of separator-free pieces gives the pieces back |
| Text.Count | tools/test_write_tool.py:188 | no contract of its own; see `Text.SplitAt`, which has one more piece than there are separators, and `Text.CountAbsent` |
| Text.CountAbsent | tools/test_write_tool.py:188 | a character the text lacks is counted zero times |
| Text.JoinWith | tools/test_write_tool.py:209 | no contract of its own; see `Text.JoinSplitAt` and `Text.SplitAtJoin` |
| Text.JoinLines | tools/test_write_tool.py:209 | no contract of its own; see `Text.LinesRoundTrip` and `Text.LinesOfJoined` |
| Text.EndsWithNewline | tools/test_write_tool.py:210 | no contract of its own; see `Text.Lines`, which counts an unterminated last line, and `Text.LinesOfAssembled` |
| Text.Lines | tools/test_write_tool.py:111 | `splitlines()` of a text as read, where `\n` is the only line break, yields as many lines as there are newlines, plus one for an unterminated last line |
| Text.LinesWithout | tools/test_write_tool.py:111 | a character the text lacks is in none of its lines |
| Text.SplitLines | tools/test_write_tool.py:207 | `content.splitlines()` of raw content: `\n`, `\r\n` and a lone `\r` each end a line, so no line holds either character, and only empty content has no lines |
| Text.SplitLinesPlain | tools/test_write_tool.py:207 | on content without a carriage return, the raw split agrees with the split of a text as read |
| Text.SplitLinesRoundTrip | tools/test_write_tool.py:207-211 | the content's lines joined with `\n`, plus a final newline when the content ended in a line break, are the content with every line break written as `\n` |
| Text.UniversalPlainPrefix | tools/test_write_tool.py:56-57 | a prefix without carriage returns reads as itself, whatever follows it |
| Text.LinesFree | tools/test_write_tool.py:111 | no line holds a newline |
| Text.LinesEmpty | tools/test_write_tool.py:112-114 | a text has no lines exactly when it is empty |
| Text.LinesRoundTrip | tools/test_write_tool.py:111 | joining a text's lines with newlines and adding back the dropped final newline gives the text exactly |
| Text.LastLineNonEmpty | tools/test_write_tool.py:111 | the last line of a non-empty, unterminated text is not empty |
| Text.LinesOfJoined | tools/test_write_tool.py:209 | joined newline-free lines whose last line is not empty split back into the same lines, with no final newline |
| Text.LinesOfTerminated | tools/test_write_tool.py:209-211 | joined lines plus a final newline split back into the same lines |
| Text.LinesOfAssembled | tools/test_write_tool.py:209-211 | a line list joined, with or without the final newline, reads back as that list and ends in a newline exactly when one was added |
| Text.IntToDecimal | tools/test_write_tool.py:214 | no contract of its own; see `Text.IntDecimalRoundTrip` |
| Text.NatToDecimal | tools/test_write_tool.py:132 | a number's decimal form is a non-empty run of digits without a leading zero |
| Text.DecimalRoundTrip | tools/test_write_tool.py:132 | reading a number's decimal digits back gives the number |
| Text.IntDecimalRoundTrip | tools/test_write_tool.py:214 | `f"{i}"` reads back to `i`: its digits alone when `i` is not negative, otherwise a minus sign followed by the digits of its magnitude |
| Paths.Walk | tools/test_write_tool.py:48 | resolving segments one at a time from a resolved path gives a resolved path |
| Paths.Lexical | tools/test_write_tool.py:48 | `(root / rel).resolve()` gives a resolved path: no empty, `.` or `..` segment is left |
| Paths.AbsoluteIgnoresRoot | tools/test_write_tool.py:48 | a path that starts with a slash resolves the same against any root: the root is discarded |
| Paths.ResolveSafe | tools/test_write_tool.py:46-51 | a path is accepted exactly when the root is a prefix of its resolved form, and then that form is returned. Otherwise the error names the resolved path |
| Paths.Render | tools/test_write_tool.py:50 | no contract of its own; see `Paths.ResolveSafe`, whose error names the rendered path, and `Paths.AbsolutePathChecked`, where a rendered path resolves back to itself |
| Paths.BackupOf | tools/test_write_tool.py:253 | the backup sits in the same directory as the file, named after it with `.bak` appended, and never is the file itself |
| Paths.WalkDescends | tools/test_write_tool.py:48 | real names only extend the path they are resolved against |
| Paths.WalkWithoutParent | tools/test_write_tool.py:48-49 | without `..`, resolution never climbs above its starting point |
| Paths.DescendingPathResolves | tools/test_write_tool.py:46-51 | a relative path with no `..` segment is always accepted |
| Paths.RelativeTo | tools/test_write_tool.py:118 | no contract of its own; see `Paths.RelativeRoundTrip` |
| Paths.RelativeRoundTrip | tools/test_write_tool.py:118 | the root-relative path a tool reports, resolved again, names the same file |
| Paths.DotIsRoot | tools/test_write_tool.py:46-51 | `"."` resolves to the root itself and is accepted |
| Paths.BelowRootRoundTrip | tools/test_write_tool.py:46-51 | the segments of a resolved path below the root, joined with slashes, resolve back to that path and are accepted |
| Paths.ParentToSiblingEscapes | tools/test_write_tool.py:49-50 | `../name` that leaves the root for a sibling is refused |
| Paths.ParentAndBackResolves | tools/test_write_tool.py:48-51 | `../<root's own name>/name` is accepted: only the resolved result is checked, not the route to it |
| Paths.AbsolutePathChecked | tools/test_write_tool.py:48-50 | an absolute path ignores the root and is accepted exactly when it lies within the root |
| Edits.ShowOptional | tools/test_write_tool.py:214 | no contract of its own; see `Text.IntDecimalRoundTrip` for the number it renders |
| Edits.LineAt | tools/test_write_tool.py:194 | no contract of its own; see `Edits.AppendSummaryLocatesContent` |
| Edits.OverwriteAll | tools/test_write_tool.py:183-190 | the new text is the content. The summary numbers 1, 2, … up to the number of `\n` in the content plus one: the content's lines split at `\n` alone, plus one more when the content is empty or ends in a newline |
| Edits.AppendText | tools/test_write_tool.py:192-193 | the old text stays a prefix of the new one, and what follows it is exactly the content |
| Edits.AppendSummaryLocatesContent | tools/test_write_tool.py:194-201 | the append summary runs from the line on which the content starts in the new text to the line holding the new text's end, both counted as the number of `\n` before them plus one. When the new text ends in a newline, or both texts are empty, that end lies on the empty line after the last one `splitlines` counts, so the summary names one line more than the file has. A lone `\r` is no line break here, so the summary can also name fewer lines (`Scenarios.CarriageReturnSummaryUndercounts`) |
| Edits.KeepTerminator | tools/test_write_tool.py:209-211 | no contract of its own; see `Edits.SpliceText`, which proves the joined text ends in a newline exactly when the old text or the content did |
| Edits.EndsClean | tools/test_write_tool.py:207-211 | no contract of its own: the content's last line is empty only when the content ends in a newline; see `Edits.PlainEndsClean` and `Scenarios.InsertLoneCarriageReturn` |
| Edits.PlainEndsClean | tools/test_write_tool.py:207-211 | content without a carriage return ends clean: its last line is empty only when it ends in a newline |
| Edits.InsertKeepsLines | tools/test_write_tool.py:204-211 | no contract of its own: the condition under which `Edits.InsertAfterLineText` holds |
| Edits.ReplaceKeepsLines | tools/test_write_tool.py:219-228 | no contract of its own: the condition under which `Edits.ReplaceRangeText` holds |
| Edits.InsertAfterLine | tools/test_write_tool.py:204-217 | no contract of its own; see `Edits.InsertAfterLineText`, `Edits.InsertTextLocate` and `Edits.InsertSummaryLocatesBlock` |
| Edits.ReplaceRange | tools/test_write_tool.py:219-234 | no contract of its own; see `Edits.ReplaceRangeText` and `Edits.ReplaceSummaryLocatesReplacement` |
| Edits.InsertLines | tools/test_write_tool.py:205-208 | no contract of its own; see `Edits.InsertLinesPlacement` and `Edits.InsertLinesLocate` |
| Edits.ReplaceLines | tools/test_write_tool.py:220-225 | no contract of its own; see `Edits.ReplaceLinesShape` and `Edits.ReplaceLinesAsSplice` |
| Edits.InsertLinesPlacement | tools/test_write_tool.py:205-208 | the block goes in directly after the clamped target line, or forms the whole file when the file is empty. Nothing is removed. For a target inside the file, the block occupies the lines right after it |
| Edits.ReplaceLinesShape | tools/test_write_tool.py:220-225 | the edited list is the lines before the clamped start, then the replacement, then the lines after the clamped end. A reversed clamped range keeps every line. An empty file becomes the replacement |
| Edits.ReplaceLinesAsSplice | tools/test_write_tool.py:220-225 | the edited list is a splice of the old lines: the cut runs from the clamped start to the clamped end, never reversed, and lies within the list |
| Edits.ReplaceLinesKeepsPrefix | tools/test_write_tool.py:222-225 | every line before the clamped start keeps its position |
| Edits.ReplaceLinesShiftsSuffix | tools/test_write_tool.py:223-225 | for a non-reversed clamped range, every line after the end moves by the replacement's length minus the range's |
| Edits.SpliceAssemblable | tools/test_write_tool.py:205-211 | a splice of the old lines and the content's `splitlines` holds no newline inside a line. When the cut stops before the last old line, the old text ended in a newline or the content ends clean, it has a line to terminate when the old text or the content ended in a newline, and otherwise does not end in an empty line |
| Edits.SpliceText | tools/test_write_tool.py:205-211 | a splice of the old lines and the content's `splitlines`, joined and given the kept terminator, reads back as that splice and ends in a newline exactly when the old text or the content did. This needs the cut to stop before the last old line, the old text to end in a newline or the content to end clean |
| Edits.InsertAfterLineText | tools/test_write_tool.py:204-211 | when the block lands before an old line, the old text ended in a newline or the content ends clean (`Edits.InsertKeepsLines`), the new file reads back as the old lines with the block inserted. It has exactly as many more lines as the block, and ends in a newline exactly when the old text or the content did |
| Edits.ReplaceRangeText | tools/test_write_tool.py:219-228 | when the range stops before the last line, or the content is not empty and either the old text ended in a newline or the content ends clean (`Edits.ReplaceKeepsLines`), the new file reads back as the edited line list, and ends in a newline exactly when the old text or the content did |
| Edits.InsertTextLocate | tools/test_write_tool.py:204-211 | under `Edits.InsertKeepsLines`, the new file has the old line count plus the block's, and the block's lines sit right after the clamped target line |
| Edits.InsertSummaryLocatesBlock | tools/test_write_tool.py:212-216 | under `Edits.InsertKeepsLines`, the insert summary has one number per block line, counting up from the line after the request. Within the file, those numbers name exactly the lines that hold the block. Past the end the block follows the last line instead |
| Edits.InsertSummaryNumbers | tools/test_write_tool.py:212-216 | for a given line `k >= 1`, the insert summary has one number per block line, counting up from `k + 1` |
| Edits.InsertLinesLocate | tools/test_write_tool.py:205-208 | after insertion the list grows by the block's length, and the block sits right after the requested line, or after the last line when the request lies past the end |
| Edits.ReplaceSummaryLocatesReplacement | tools/test_write_tool.py:229-233 | for an in-file, non-reversed range, the summary lists start to end, and those lines of the edited list hold the replacement for as long as it lasts |
| Edits.ReplacedNamed | tools/test_write_tool.py:222-225 | line numbers counting up from the start of an in-file, non-reversed range name the lines of the edited list that hold the replacement |
| Edits.ReplaceSummaryNumbers | tools/test_write_tool.py:229-233 | for given bounds `s, e >= 1`, the replace summary is `s, s + 1, ..., e`, and empty when `e < s` |
| Edits.ReplaceLinesLocate | tools/test_write_tool.py:220-225 | replacing an in-file, non-reversed range changes the length by the replacement's length minus the range's, and the replacement starts at the start line |
| ReadTool.DirectoryMessage | tools/test_write_tool.py:145-150 | no contract of its own; see `ReadTool.ReadFile` and `WriteTool.WriteFile`, which give it for the root |
| ReadTool.TextRead | tools/test_write_tool.py:110 | no contract of its own; see `ReadTool.ReadSlice` and `ReadTool.ReadBody` |
| ReadTool.NumberLines | tools/test_write_tool.py:132 | one numbered line per line of the slice; see `ReadTool.NumberLinesParse` for what each holds |
| ReadTool.Body | tools/test_write_tool.py:130-134 | no contract of its own; see `ReadTool.ReadBody` and `ReadTool.NumberedBody` |
| ReadTool.ReadBounds | tools/test_write_tool.py:125-128 | the range read always lies within the file and is never reversed |
| ReadTool.NumberedLineParses | tools/test_write_tool.py:132 | a numbered line `f"{n}: {t}"` reads back to the number `n` and the text `t` |
| ReadTool.NumberLinesParse | tools/test_write_tool.py:130-132 | returned line `i` of a numbered slice starting at line `s` reads back to the number `s + i` and line `i` of the slice |
| ReadTool.ReadFile | tools/test_write_tool.py:96-150 | a read succeeds exactly when the path is accepted, is not the root directory and names a file. A refused path gives the refusal and the root gives the errno 21 message. A success reports the digest of the whole file as read, its line count (zero exactly for an empty file) and the root-relative path |
| ReadTool.ReadBoundsHonoursRequest | tools/test_write_tool.py:125-128 | an in-file request is honoured exactly. No bounds means the whole file. A start past the end reads the last line, and an end before the start is raised to the start |
| ReadTool.ReadMissingFile | tools/test_write_tool.py:107-108 | a missing file is a "file not found" error, whatever the range |
| ReadTool.ReadEmptyFile | tools/test_write_tool.py:114-123 | an empty file reads as no lines and empty content with the empty text's digest, whatever the range |
| ReadTool.ReadSlice | tools/test_write_tool.py:125-144 | a non-empty file returns lines `s..e` joined by newlines. In numbered mode, line `i` of the content is file line `s + i` prefixed by its number. The digest is the whole file's |
| ReadTool.ReadBody | tools/test_write_tool.py:125-144 | a non-empty file has at least one line, and its content is the body of the clamped range |
| ReadTool.NumberedBody | tools/test_write_tool.py:130-134 | the numbered body of lines `s..e` splits back into `e - s + 1` lines, line `i` being file line `s + i` prefixed by its number |
| ReadTool.NumberedReadsBack | tools/test_write_tool.py:130-134 | numbered lines hold no newline and are never empty, so the numbered content splits back into exactly those lines |
| WriteTool.LineArgsInBounds | tools/test_write_tool.py:82-84 | no contract of its own; see `WriteTool.WriteFileTool` |
| WriteTool.ValidateModeFields | tools/test_write_tool.py:87-93 | the arguments pass exactly when `insert_after_line` has a non-zero line and `replace_range` has both bounds non-zero. Overwrite and append always pass. A failure carries the validator's own message for the mode (`WriteTool.LineRequired`, `WriteTool.BoundsRequired`) |
| WriteTool.ApplyMode | tools/test_write_tool.py:183-242 | no contract of its own; see `WriteTool.WriteFile`, which returns the mode's summary when applied, and `WriteTool.NoOpWritesNothing` |
| WriteTool.WriteFile | tools/test_write_tool.py:165-281 | the call fails exactly when the path is refused or is the root, and the failure carries the path as given. Otherwise the result reports the root-relative path. Conflict exactly when the file exists, the base digest is non-empty and differs from the file's. Only an applied edit writes. When applied, the text changed, the new digest and the mode's summary are returned, and the writes are the backup (if requested and the file existed) followed by the target |
| WriteTool.WriteFileTool | tools/test_write_tool.py:82-93 | arguments that break a `ge=1` bound or the mode rules are rejected before anything is written, a mode-rule failure with that rule's message. Valid ones run the body |
| WriteTool.OldText | tools/test_write_tool.py:168 | no contract of its own; see `WriteTool.WriteEffect`, where the backup holds the old text as read, and `WriteTool.ReadDigestPassesLock` |
| WriteTool.Stale | tools/test_write_tool.py:172 | no contract of its own; see `WriteTool.WriteFile`, which conflicts exactly when the lock is stale, and `WriteTool.LockNeedsFileAndDigest` |
| WriteTool.Commit | tools/test_write_tool.py:252-255 | no contract of its own; see `WriteTool.CommitEffect` and `WriteTool.BackupPrecedesTarget` |
| WriteTool.CommitEffect | tools/test_write_tool.py:252-255 | after a sequence of whole-file writes, each written file holds its last write's text, and every other file is unchanged |
| WriteTool.CommitUntouched | tools/test_write_tool.py:252-255 | a file no write targets keeps its presence and its text |
| WriteTool.CommitLast | tools/test_write_tool.py:252-255 | a file some write targets holds the text of the last write to it |
| WriteTool.CommitOne | tools/test_write_tool.py:255 | a single write replaces exactly its target's text |
| WriteTool.CommitTwo | tools/test_write_tool.py:252-255 | two writes in order replace the first target's text and then the second's |
| WriteTool.LastWriteTo | tools/test_write_tool.py:252-255 | the last write to a path is a write to it, and no later write touches it |
| WriteTool.WriteEffect | tools/test_write_tool.py:244-255 | after an applied write, the target holds the new text and the requested backup holds the old text as read. Every other file is as it was. Any other outcome changes nothing |
| WriteTool.BackupPrecedesTarget | tools/test_write_tool.py:252-255 | at every point of an applied call's writes, the target has changed only once the backup holds its old text as read |
| WriteTool.NoOpWritesNothing | tools/test_write_tool.py:244-250 | past the lock, the result is a no-op exactly when the edit leaves the text unchanged. A no-op writes nothing, not even the backup |
| WriteTool.LockNeedsFileAndDigest | tools/test_write_tool.py:172 | a missing file, or a missing or empty base digest, never conflicts |
| WriteTool.ReadDigestPassesLock | tools/test_write_tool.py:141 | handing back the digest a read returned, for the unchanged file, never conflicts |
| WriteTool.StaleDigestConflicts | tools/test_write_tool.py:169-178 | once a locked write has changed the file as read, and the digest tells the two texts as read apart, presenting the same base digest again conflicts and writes nothing |
| WriteTool.UnchangedReadPassesLock | tools/test_write_tool.py:168-172 | a locked write that leaves the file as read unchanged, changing only what reading undoes, lets the same base digest pass the lock again |
| WriteTool.OverwriteReadsBack | tools/test_write_tool.py:183-184 | after an overwrite, a full read returns the content as read (less a final newline), its line count and its digest. Content without a carriage return reads back exactly, under the digest the write returned |
| WriteTool.ReturnedDigestConflicts | tools/test_write_tool.py:168-172 | after an overwrite whose content holds a carriage return, the digest the write returned is not the digest a read reports, and a follow-up write that presents it conflicts |
| Scenarios.OneLine | tools/test_write_tool.py:111 | a non-empty text without a line break is one line, both as a text as read and as raw content, has no final newline and ends clean |
| Scenarios.NameResolves | tools/test_write_tool.py:46-51 | a plain file name resolves to that file directly under the root |
| Scenarios.CreateFile | tools/test_write_tool.py:168-184 | writing a new file writes the content alone, with no backup even when one is requested, and returns the content's digest |
| Scenarios.WrongDigestConflicts | tools/test_write_tool.py:172-178 | a wrong base digest on an existing file conflicts in every mode and leaves the filesystem as it was |
| Scenarios.InsertOneLine | tools/test_write_tool.py:204-216 | inserting one line into an unterminated file gives the inserted line list, still unterminated, and the summary names the line after the request |
| Scenarios.InsertOneLineText | tools/test_write_tool.py:204-211 | inserting one line into an unterminated file gives the inserted line list, still unterminated |
| Scenarios.InsertOneLineSummary | tools/test_write_tool.py:212-216 | the summary of inserting one line names the line after the request |
| Scenarios.ReplaceByLine | tools/test_write_tool.py:219-233 | replacing a range of an unterminated file by one line gives the replaced line list, and the summary is the requested range |
| Scenarios.InsertAfterFirstLine | tools/test_write_tool.py:204-216 | inserting a line after line 1 of `a, b, c` gives `a, x, b, c` with no final newline. The summary names line 2 |
| Scenarios.InsertPastEnd | tools/test_write_tool.py:204-216 | inserting after a line past the end of `a, b, c` appends the line, while the summary names the line after the requested one |
| Scenarios.ReplaceMiddle | tools/test_write_tool.py:219-233 | replacing lines 2 to 3 of a four-line file by one line leaves three lines, and the summary lists 2 and 3 |
| Scenarios.ReversedRangeValid | tools/test_write_tool.py:87-93 | a reversed range with both bounds present and in bounds passes validation |
| Scenarios.ReversedRange | tools/test_write_tool.py:219-233 | replacing lines 3 to 1 of `a, b, c` inserts the line before line 3 without deleting anything, and the summary is empty |
| Scenarios.ReversedPastEnd | tools/test_write_tool.py:219-234 | replacing lines `s` to `e` of `a, b, c` with `3 <= e < s` replaces line 3, and the summary is empty |
| Scenarios.CarriageReturnReplaceKeepsText | tools/test_write_tool.py:219-228 | replacing line 2 of `a\nb` by `b\r` gives `a\nb` again: the carriage return ends the line and adds no final newline |
| Scenarios.CarriageReturnReplaceIsNoOp | tools/test_write_tool.py:219-250 | that replacement, on a file stored as `a\nb`, is a no-op that writes nothing |
| Scenarios.StoredTwoLines | tools/test_write_tool.py:168 | a file stored as two lines without carriage returns reads back as stored |
| Scenarios.InsertLoneCarriageReturn | tools/test_write_tool.py:204-211 | inserting `\r` after the only line of `a` makes the line list `a, ""`, but the file written is `a\n`, which reads back as `a` alone: `\r` does not end clean |
| Scenarios.CrLfReadsAsNewline | tools/test_write_tool.py:56-57 | `\r\n` between two texts without carriage returns reads as `\n` |
| Scenarios.CarriageReturnReadsAsNewline | tools/test_write_tool.py:56-57 | `a\r\nb` differs from `a\nb` but reads as it, and `a\nb` reads as itself |
| Scenarios.CarriageReturnKeepsDigest | tools/test_write_tool.py:168-184 | overwriting `a\nb` with `a\r\nb` under the right base digest is applied, and the same base digest then passes the lock again |
| Scenarios.CarriageReturnSummaryUndercounts | tools/test_write_tool.py:183-202 | for `a\rb`, both the raw split and the file as read have lines `a, b`, while the `overwrite` summary and the summary of appending `\rb` to `a` are `[1]` |
| Scenarios.OverwriteLoneCr | tools/test_write_tool.py:183-190 | the `overwrite` half: `a\rb` splits and reads as `a, b`, and the summary is `[1]` |
| Scenarios.AppendLoneCr | tools/test_write_tool.py:192-202 | the `append` half: `a` then `\rb` reads as `a, b`, and the summary is `[1]` |
| Scenarios.LoneCrReadsAsTwoLines | tools/test_write_tool.py:56-57 | a lone `\r` between two lines reads as `\n`, giving those two lines |
| Scenarios.ZeroLineIsMissing | tools/test_write_tool.py:89-91 | a line number of 0 is treated as missing: `insert_after_line` and `replace_range` give the same text and summary numbers as with no number, and the validator refuses it with its own message |
| Scenarios.AppendContinuesLastLine | tools/test_write_tool.py:192-202 | appending `c\nd` to `a\nb` continues line 2, and the summary lists 2 and 3 |
| Scenarios.ReplaceExposesEmptyLastLine | tools/test_write_tool.py:219-228 | deleting the last line of `a, "", b` with empty content leaves `a\n`. The result reads back as one line where the line list has two |
| Scenarios.ReplaceAllLeavesNewline | tools/test_write_tool.py:219-228 | deleting the only line of a terminated file with empty content leaves a lone newline, which reads back as one empty line |
| Scenarios.ReadEmptyExample | tools/test_write_tool.py:114-123 | an empty file reads as "empty file" with zero lines, whatever the range |
| Scenarios.StoredLines | tools/test_write_tool.py:110-111 | lines without carriage returns, stored joined, read back as those lines |
| Scenarios.ReadStored | tools/test_write_tool.py:104-144 | a file stored as such lines reads with their count and the body of its clamped range |
| Scenarios.ReadNumberedExample | tools/test_write_tool.py:125-144 | lines 2 to 9 of a three-line file, numbered, are `2: b` and `3: c`, and the count is 3 |

## Left out

- Symbolic links: resolution is lexical, while `Path.resolve()` follows links, so the two disagree both ways. A link inside the root that points outside it is refused by `_resolve_safe` and accepted by the model. A path `../<link>/name` through a link outside the root that points back into it is accepted by `_resolve_safe` and refused by the model.
- Directories other than the workspace root are not modelled: the filesystem holds regular files only. Resolving to the root itself is the one directory case.
- ReadTool.DirectoryMessage: the errno 21 message quotes the absolute path plainly. The escaping Python's `repr` applies to unusual characters is not modelled.
- Creating parent directories before a write (`mkdir(parents=True)`) is left out, as is a write failing part-way: each write replaces a whole file at once.
- Writing stores the text unchanged. The newline translation a text-mode write performs on Windows is not modelled.
- SHA-256 itself and UTF-8 encoding are left out. The digest is a parameter.
- The unified diff (`difflib.unified_diff`) is left out. It is reported but affects nothing else.
- The `meta` record (`ToolMeta`), the result's `message` strings for success, conflict and no-op, and the tool-framework and JSON-schema wrapping are left out. They carry no behaviour.
- Any other exception (permission denied, undecodable bytes) is only represented by the error outcomes the model raises itself. The catch-all is not otherwise modelled.
- The `unsupported mode` branch is left out: the mode is one of four constructors, so that branch cannot be reached.
- Text.Lines: after reading, `\n` is the only line break left in file text, and raw content goes through `Text.SplitLines`, which also breaks at `\r\n` and `\r`. `splitlines()` also breaks at `\v`, `\f`, `\x1c`–`\x1e`, `\x85`, `\u2028` and `\u2029`. The model does not.
- WriteTool.WriteFileTool: a rejection carries only a reason. A `ge=1` violation gives the fixed reason "line numbers must be >= 1", not pydantic's validation report. A mode-rule failure gives the rule's own message without the report around it.
- ReadTool.ReadFile: the `ge=1` bounds on `read_file`'s line arguments are not checked. Clamping makes any value safe, so the model reads with whatever is passed.
- Edits.ReplaceRangeText: proved only under `Edits.ReplaceKeepsLines`: the clamped range ends before the last line, or the content is not empty and either the old text ended in a newline or the content ends clean. Otherwise the joined text can lose an empty last line, or gain a lone newline (`Scenarios.ReplaceExposesEmptyLastLine`, `Scenarios.ReplaceAllLeavesNewline`).
- Edits.InsertAfterLineText: proved only under `Edits.InsertKeepsLines`. Content ending in `\r` right after another line break, or `"\r"` alone, inserted after the last line of an unterminated file, leaves an empty last line that no final newline covers, and the join loses it (`Scenarios.InsertLoneCarriageReturn`).
- Edits.InsertTextLocate: proved only under `Edits.InsertKeepsLines`, for the reason given for `Edits.InsertAfterLineText`.
- Edits.InsertSummaryLocatesBlock: proved only under `Edits.InsertKeepsLines`, for the reason given for `Edits.InsertAfterLineText`.
- WriteTool.StaleDigestConflicts: assumes the first write changed the file as read and that the digest tells the two texts as read apart (`WriteTool.Separates`). SHA-256 collisions are not modelled. An edit that only adds carriage returns leaves the file as read unchanged, and the same base digest passes the lock again (`WriteTool.UnchangedReadPassesLock`, `Scenarios.CarriageReturnKeepsDigest`).

=== FILE: edits.dfy ===
/** The four text transforms of the write tool and the edit summaries they
    report. Each takes the old file text (`""` for a missing file) and the
    request's fields, and yields the new text with one summary. */
module Edits {
  import opened PySemantics
  import opened Text

  /** A description of the edit and the 1-based line numbers it reports. */
  datatype EditSummary = EditSummary(description: string, affectedLines: seq<int>)

  datatype Edited = Edited(text: string, summary: EditSummary)

  /** `f"{x}"` for an optional integer. */
  function ShowOptional(x: Option<int>): string
  {
    match x
    case None => "None"
    case Some(v) => IntToDecimal(v)
  }

  /** The final newline the line-based modes put back: present when the
      old text or the new content ended with one. */
  function KeepTerminator(before: string, content: string): string
  {
    if EndsWithNewline(before) || EndsWithNewline(content) then [NL] else []
  }

  /** The content's lines end the way the content does: the last one is
      empty only when the content ends in a newline, which the kept final
      newline then covers. A carriage return at the very end, right after
      another line break or alone (`"x\r\r"`, `"\r"`), leaves an empty
      last line with no final newline to cover it. */
  predicate EndsClean(content: string)
  {
    var block := SplitLines(content);
    EndsWithNewline(content) || block == [] || block[|block| - 1] != []
  }

  /** Content without a carriage return ends clean. */
  lemma PlainEndsClean(content: string)
    requires CR !in content
    ensures EndsClean(content)
  {
    SplitLinesPlain(content);
    if !EndsWithNewline(content) {
      UnterminatedLastLine(content);
    }
  }

  /** When the text `insert_after_line` writes splits back into its line
      list: the block lands before an old line, or nothing can leave an
      empty last line unterminated. */
  predicate InsertKeepsLines(before: string, line: int, content: string)
  {
    var n := |Lines(before)|;
    ClampLine(line, n) < n || EndsWithNewline(before) || EndsClean(content)
  }

  /** When the text `replace_range` writes splits back into its line list:
      the range ends before the last old line, or the content is not empty
      and nothing can leave an empty last line unterminated. */
  predicate ReplaceKeepsLines(before: string, endLine: int, content: string)
  {
    var n := |Lines(before)|;
    ClampLine(endLine, n) < n || (content != [] && (EndsWithNewline(before) || EndsClean(content)))
  }

  /** The 1-based number of the line on which offset `k` of `t` lies,
      counting `\n` only, as the summaries do. */
  function LineAt(t: string, k: nat): int
    requires k <= |t|
  {
    Count(t[..k], NL) + 1
  }

  /** `overwrite`: the new text is the content. The summary numbers from 1
      to one more than the content's count of `\n`: its lines split at `\n`
      alone, with one extra number past the end when the content is empty
      or ends in a newline. A lone `\r` breaks no line here. */
  function OverwriteAll(content: string): (e: Edited)
    ensures e.text == content
    ensures |e.summary.affectedLines|
         == |Lines(content)| + (if content == [] || EndsWithNewline(content) then 1 else 0)
    ensures forall i :: 0 <= i < |e.summary.affectedLines| ==> e.summary.affectedLines[i] == i + 1
  {
    Edited(content, EditSummary("overwrite all", Range(1, Count(content, NL) + 2)))
  }

  /** `append`: the content is added after the old text, which stays a
      prefix of the new one. */
  function AppendText(before: string, content: string): (e: Edited)
    ensures before <= e.text && e.text[|before|..] == content
  {
    var first := if |before| > 0 then Count(before, NL) + 1 else 1;
    Edited(before + content, EditSummary("append", Range(first, first + Count(content, NL) + 1)))
  }

  /** The line list of `insert_after_line`: with `k` the target line clamped
      into the file, the block goes in right after line `k`. */
  function InsertLines(lines: seq<string>, line: int, block: seq<string>): seq<string>
  {
    var k := ClampLine(line, |lines|);
    SliceAssign(lines, k, k, block)
  }

  /** `insert_after_line`. The block is the content split by `splitlines`,
      which also breaks at carriage returns. The summary counts from the
      requested line, not from the clamped one. */
  function InsertAfterLine(before: string, line: Option<int>, content: string): Edited
  {
    var block := SplitLines(content);
    var newLines := InsertLines(Lines(before), OrElse(line, 1), block);
    var at := OrElse(line, 0) + 1;
    Edited(JoinLines(newLines) + KeepTerminator(before, content),
           EditSummary("insert_after_line " + ShowOptional(line), Range(at, at + |block|)))
  }

  /** The line list of `replace_range`: both bounds are clamped into the
      file, then the 0-based slice `[s-1, e)` is assigned the replacement.
      When the clamped end precedes the clamped start the slice is empty and
      the replacement is inserted before line `s` without deleting anything. */
  function ReplaceLines(lines: seq<string>, startLine: int, endLine: int, repl: seq<string>): seq<string>
  {
    var n := |lines|;
    var s := ClampLine(startLine, n) - 1;
    var e := ClampLine(endLine, n) - 1;
    SliceAssign(lines, s, e + 1, repl)
  }

  /** `replace_range`. The replacement is the content split by
      `splitlines`. The summary lists the requested bounds, unclamped. */
  function ReplaceRange(before: string, startLine: Option<int>, endLine: Option<int>, content: string): Edited
  {
    var repl := SplitLines(content);
    var newLines := ReplaceLines(Lines(before), OrElse(startLine, 1), OrElse(endLine, 1), repl);
    Edited(JoinLines(newLines) + KeepTerminator(before, content),
           EditSummary("replace_range " + ShowOptional(startLine) + "-" + ShowOptional(endLine),
                       Range(OrElse(startLine, 1), OrElse(endLine, 0) + 1)))
  }

  /** The append summary starts at the line on which the appended content
      begins in the new text and ends at the line holding the new text's
      end, so appending to an unterminated last line reports that line
      first. When the new text ends in a newline, or is empty, that end
      lies on the empty line after the last one `splitlines` counts, and
      the summary names one line more than the file has. */
  lemma AppendSummaryLocatesContent(before: string, content: string)
    ensures var e := AppendText(before, content);
            e.summary.affectedLines == Range(LineAt(e.text, |before|), LineAt(e.text, |e.text|) + 1)
  {
    var t := before + content;
    assert t[..|before|] == before;
    assert t[..|t|] == t;
    CountAppend(before, content, NL);
  }

  /** Where `insert_after_line` puts the block: after the clamped target
      line, or as the whole file when the file is empty; nothing is removed. */
  lemma InsertLinesPlacement(lines: seq<string>, line: int, block: seq<string>)
    ensures var n := |lines|;
            var k := ClampLine(line, n);
            var r := InsertLines(lines, line, block);
            && |r| == n + |block|
            && (n == 0 ==> r == block)
            && (n >= 1 ==> r == lines[..k] + block + lines[k..])
            && (1 <= line <= n ==> r[line..line + |block|] == block)
  {
    var n := |lines|;
    var k := ClampLine(line, n);
    if n >= 1 {
      assert Min(k, n) == k;
    }
  }

  /** The shape of the `replace_range` line list: an empty file becomes the
      replacement; otherwise the replacement takes the place of the clamped
      range, or, when that range is reversed, goes in before the start line. */
  lemma ReplaceLinesShape(lines: seq<string>, startLine: int, endLine: int, repl: seq<string>)
    ensures var n := |lines|;
            var s := ClampLine(startLine, n);
            var e := ClampLine(endLine, n);
            var r := ReplaceLines(lines, startLine, endLine, repl);
            && (n == 0 ==> r == repl)
            && (n >= 1 && s <= e ==>
                  r == lines[..s - 1] + repl + lines[e..] && |r| == n - (e - s + 1) + |repl|)
            && (n >= 1 && e < s ==> r == lines[..s - 1] + repl + lines[s - 1..])
  {
    var n := |lines|;
    var s := ClampLine(startLine, n);
    var e := ClampLine(endLine, n);
    if n >= 1 {
      assert Min(s - 1, n) == s - 1 && Min(e, n) == e;
    }
  }

  /** Lines before the clamped start keep their place. */
  lemma ReplaceLinesKeepsPrefix(lines: seq<string>, startLine: int, endLine: int, repl: seq<string>)
    ensures var s := ClampLine(startLine, |lines|);
            var r := ReplaceLines(lines, startLine, endLine, repl);
            forall i :: 0 <= i < s - 1 && i < |lines| ==> r[i] == lines[i]
  {
    var s := ClampLine(startLine, |lines|);
    var r := ReplaceLines(lines, startLine, endLine, repl);
    var a := Min(s - 1, |lines|);
    forall i | 0 <= i < s - 1 && i < |lines|
      ensures r[i] == lines[i]
    {
      assert r[..a][i] == lines[..a][i];
    }
  }

  /** Lines after the clamped end move by the change in length. */
  lemma ReplaceLinesShiftsSuffix(lines: seq<string>, startLine: int, endLine: int, repl: seq<string>)
    requires |lines| >= 1 && ClampLine(startLine, |lines|) <= ClampLine(endLine, |lines|)
    ensures var s := ClampLine(startLine, |lines|);
            var e := ClampLine(endLine, |lines|);
            var r := ReplaceLines(lines, startLine, endLine, repl);
            forall i :: e <= i < |lines| ==> r[i - (e - s + 1) + |repl|] == lines[i]
  {
    var n := |lines|;
    var s := ClampLine(startLine, n);
    var e := ClampLine(endLine, n);
    var r := ReplaceLines(lines, startLine, endLine, repl);
    ReplaceLinesShape(lines, startLine, endLine, repl);
    var pre := lines[..s - 1];
    var suffix := lines[e..];
    assert r == pre + repl + suffix;
    forall i | e <= i < n
      ensures r[i - (e - s + 1) + |repl|] == lines[i]
    {
      var j := |pre| + |repl| + (i - e);
      assert j == i - (e - s + 1) + |repl|;
      assert (pre + repl + suffix)[j] == suffix[i - e];
    }
  }

  lemma FreeConcat(a: seq<string>, b: seq<string>, c: seq<string>)
    requires Free(a, NL) && Free(b, NL) && Free(c, NL)
    ensures Free(a + b + c, NL)
  {
    var r := a + b + c;
    forall i | 0 <= i < |r|
      ensures NL !in r[i]
    {
      if i < |a| {
        assert r[i] == a[i];
      } else if i < |a| + |b| {
        assert r[i] == b[i - |a|];
      } else {
        assert r[i] == c[i - |a| - |b|];
      }
    }
  }

  /** The last line of a splice `ls[..a] + block + ls[b..]` in which the
      end of `ls` is kept, or the block is not empty, or nothing of `ls` is
      dropped from the end. */
  lemma SpliceLast(ls: seq<string>, block: seq<string>, a: nat, b: nat)
    requires a <= b <= |ls|
    requires b < |ls| || block != [] || a == |ls|
    ensures var r := ls[..a] + block + ls[b..];
            && (|ls| >= 1 || block != [] ==> |r| >= 1)
            && (|r| >= 1 ==> r[|r| - 1] == if b < |ls| || block == [] then ls[|ls| - 1] else block[|block| - 1])
  {
  }

  /** The splice of the old lines and the content's lines has no newline
      inside a line, has a line to terminate when the old text or the
      content ended in a newline, and otherwise does not end in an empty
      line, unless the content's own empty last line ends it. */
  lemma SpliceAssemblable(before: string, content: string, a: nat, b: nat)
    requires a <= b <= |Lines(before)|
    requires b < |Lines(before)| || SplitLines(content) != [] || a == |Lines(before)|
    requires b < |Lines(before)| || EndsWithNewline(before) || EndsClean(content)
    ensures var r := Lines(before)[..a] + SplitLines(content) + Lines(before)[b..];
            var terminated := EndsWithNewline(before) || EndsWithNewline(content);
            && Free(r, NL)
            && (terminated ==> |r| >= 1)
            && (!terminated ==> r == [] || r[|r| - 1] != [])
  {
    var ls := Lines(before);
    var block := SplitLines(content);
    LinesFree(before);
    FreeConcat(ls[..a], block, ls[b..]);
    SpliceHasLine(before, content, a, b);
    if !EndsWithNewline(before) && !EndsWithNewline(content) {
      SpliceUnterminated(before, content, a, b);
    }
  }

  /** A splice of a terminated text's or content's lines has a line. */
  lemma SpliceHasLine(before: string, content: string, a: nat, b: nat)
    requires a <= b <= |Lines(before)|
    requires b < |Lines(before)| || SplitLines(content) != [] || a == |Lines(before)|
    ensures EndsWithNewline(before) || EndsWithNewline(content) ==>
              |Lines(before)[..a] + SplitLines(content) + Lines(before)[b..]| >= 1
  {
    LinesEmpty(before);
    SpliceLast(Lines(before), SplitLines(content), a, b);
  }

  /** Without a final newline on either side, the splice does not end in
      an empty line, when old lines follow the block or the content ends
      clean. */
  lemma SpliceUnterminated(before: string, content: string, a: nat, b: nat)
    requires a <= b <= |Lines(before)|
    requires b < |Lines(before)| || SplitLines(content) != [] || a == |Lines(before)|
    requires !EndsWithNewline(before) && !EndsWithNewline(content)
    requires b < |Lines(before)| || EndsClean(content)
    ensures var r := Lines(before)[..a] + SplitLines(content) + Lines(before)[b..];
            r == [] || r[|r| - 1] != []
  {
    UnterminatedLastLine(before);
    SpliceLast(Lines(before), SplitLines(content), a, b);
  }

  /** Text without a final newline has no lines or a non-empty last one. */
  lemma UnterminatedLastLine(t: string)
    requires !EndsWithNewline(t)
    ensures var ls := Lines(t); ls == [] || ls[|ls| - 1] != []
  {
    if t != [] {
      LastLineNonEmpty(t);
    }
  }

  /** `lines` with `[a, b)` cut out and `block` put in its place. */
  function Splice(lines: seq<string>, a: int, b: int, block: seq<string>): seq<string>
    requires 0 <= a <= b <= |lines|
  {
    lines[..a] + block + lines[b..]
  }

  /** A line-based edit whose line list is a splice of the old lines and
      the content's lines reads back as that splice, with the final newline
      kept exactly when the old text or the content had one. */
  lemma SpliceText(before: string, content: string, r: seq<string>, a: int, b: int)
    requires 0 <= a <= b <= |Lines(before)|
    requires b < |Lines(before)| || SplitLines(content) != [] || a == |Lines(before)|
    requires b < |Lines(before)| || EndsWithNewline(before) || EndsClean(content)
    requires r == Splice(Lines(before), a, b, SplitLines(content))
    ensures var t := JoinLines(r) + KeepTerminator(before, content);
            && Lines(t) == r
            && (EndsWithNewline(t) <==> EndsWithNewline(before) || EndsWithNewline(content))
  {
    SpliceAssemblable(before, content, a, b);
    var terminated := EndsWithNewline(before) || EndsWithNewline(content);
    assert KeepTerminator(before, content) == if terminated then [NL] else [];
    LinesOfAssembled(r, terminated);
  }

  /** The file after `insert_after_line` reads back as the old lines with
      the block inserted: it has exactly `|block|` more lines, and it ends
      in a newline exactly when the old text or the content did. This
      holds unless the block ends the file in an empty line that no final
      newline covers (see `InsertKeepsLines`). */
  lemma InsertAfterLineText(before: string, line: Option<int>, content: string)
    ensures var e := InsertAfterLine(before, line, content);
            InsertKeepsLines(before, OrElse(line, 1), content) ==>
              && Lines(e.text) == InsertLines(Lines(before), OrElse(line, 1), SplitLines(content))
              && |Lines(e.text)| == |Lines(before)| + |SplitLines(content)|
              && (EndsWithNewline(e.text) <==> EndsWithNewline(before) || EndsWithNewline(content))
  {
    var ls := Lines(before);
    var n := |ls|;
    var k := Min(ClampLine(OrElse(line, 1), n), n);
    var r := InsertLines(ls, OrElse(line, 1), SplitLines(content));
    assert r == Splice(ls, k, k, SplitLines(content));
    if InsertKeepsLines(before, OrElse(line, 1), content) {
      assert k < n || EndsWithNewline(before) || EndsClean(content);
      SpliceText(before, content, r, k, k);
    }
  }

  /** The file after `replace_range` reads back as the edited line list, and
      ends in a newline exactly when the old text or the content did,
      unless the range reaches the last line and the edit leaves an empty
      last line, or no line, that the join loses (see `ReplaceKeepsLines`). */
  lemma ReplaceRangeText(before: string, startLine: Option<int>, endLine: Option<int>, content: string)
    ensures var r := ReplaceRange(before, startLine, endLine, content);
            ReplaceKeepsLines(before, OrElse(endLine, 1), content) ==>
              && Lines(r.text) == ReplaceLines(Lines(before), OrElse(startLine, 1), OrElse(endLine, 1), SplitLines(content))
              && (EndsWithNewline(r.text) <==> EndsWithNewline(before) || EndsWithNewline(content))
  {
    if ReplaceKeepsLines(before, OrElse(endLine, 1), content) {
      ReplaceRangeLines(before, startLine, endLine, content);
      ReplaceRangeEnds(before, startLine, endLine, content);
    }
  }

  /** The line-list half of `ReplaceRangeText`. */
  lemma ReplaceRangeLines(before: string, startLine: Option<int>, endLine: Option<int>, content: string)
    requires ReplaceKeepsLines(before, OrElse(endLine, 1), content)
    ensures Lines(ReplaceRange(before, startLine, endLine, content).text)
         == ReplaceLines(Lines(before), OrElse(startLine, 1), OrElse(endLine, 1), SplitLines(content))
  {
    ReplaceSplice(before, OrElse(startLine, 1), OrElse(endLine, 1), content);
  }

  /** The final-newline half of `ReplaceRangeText`. */
  lemma ReplaceRangeEnds(before: string, startLine: Option<int>, endLine: Option<int>, content: string)
    requires ReplaceKeepsLines(before, OrElse(endLine, 1), content)
    ensures EndsWithNewline(ReplaceRange(before, startLine, endLine, content).text)
        <==> EndsWithNewline(before) || EndsWithNewline(content)
  {
    ReplaceSplice(before, OrElse(startLine, 1), OrElse(endLine, 1), content);
  }

  /** Joining the replaced line list and keeping the terminator gives a text
      that splits back into that list and ends the way `SpliceText` says. */
  lemma ReplaceSplice(before: string, s: int, e: int, content: string)
    requires ReplaceKeepsLines(before, e, content)
    ensures var r := ReplaceLines(Lines(before), s, e, SplitLines(content));
            var t := JoinLines(r) + KeepTerminator(before, content);
            && Lines(t) == r
            && (EndsWithNewline(t) <==> EndsWithNewline(before) || EndsWithNewline(content))
  {
    var n := |Lines(before)|;
    ReplaceCutValid(before, s, e, content);
    var r := ReplaceLines(Lines(before), s, e, SplitLines(content));
    ReplaceLinesAsSplice(Lines(before), s, e, SplitLines(content));
    SpliceText(before, content, r, CutStart(n, s), CutEnd(n, s, e));
  }

  /** When the replaced text keeps its lines, the `replace_range` cut is
      one `SpliceText` accepts. */
  lemma ReplaceCutValid(before: string, s: int, e: int, content: string)
    requires ReplaceKeepsLines(before, e, content)
    ensures var n := |Lines(before)|;
            && (CutEnd(n, s, e) < n || SplitLines(content) != [] || CutStart(n, s) == n)
            && (CutEnd(n, s, e) < n || EndsWithNewline(before) || EndsClean(content))
  {
  }

  /** Where the `replace_range` cut of an `n`-line list starts: the clamped
      start line, as a 0-based index. */
  function CutStart(n: nat, s: int): int
  {
    Min(ClampLine(s, n) - 1, n)
  }

  /** Where the `replace_range` cut ends: the clamped end line, but never
      before the cut start. */
  function CutEnd(n: nat, s: int, e: int): int
  {
    Max(CutStart(n, s), Min(ClampLine(e, n), n))
  }

  /** The `replace_range` line list as a splice: the lines before the cut
      start, the replacement, and the lines from the cut end on. */
  lemma ReplaceLinesAsSplice(lines: seq<string>, startLine: int, endLine: int, repl: seq<string>)
    ensures var n := |lines|;
            var a := CutStart(n, startLine);
            var b := CutEnd(n, startLine, endLine);
            0 <= a <= b <= n && ReplaceLines(lines, startLine, endLine, repl) == Splice(lines, a, b, repl)
  {
  }

  /** `block` occupies `r` from index `at` on. */
  predicate Located(r: seq<string>, at: int, block: seq<string>)
  {
    0 <= at && at + |block| <= |r| && forall i :: 0 <= i < |block| ==> r[at + i] == block[i]
  }

  /** `xs` counts up by one from `from`. */
  predicate CountsFrom(xs: seq<int>, from: int)
  {
    forall i :: 0 <= i < |xs| ==> xs[i] == from + i
  }

  /** The 1-based line numbers in `affected` name lines of `r` holding the
      lines of `block`, pairwise, for as long as both last. */
  predicate NamesLines(r: seq<string>, affected: seq<int>, block: seq<string>)
  {
    forall i :: 0 <= i < |affected| && i < |block| ==> 1 <= affected[i] <= |r| && r[affected[i] - 1] == block[i]
  }

  /** Numbers counting up from `from` name a block that starts at index
      `from - 1`, that is at line `from`. */
  lemma LocatedNamed(r: seq<string>, at: int, from: int, block: seq<string>, affected: seq<int>)
    requires Located(r, at, block) && CountsFrom(affected, from) && from == at + 1
    ensures NamesLines(r, affected, block)
  {
    forall i | 0 <= i < |affected| && i < |block|
      ensures 1 <= affected[i] <= |r| && r[affected[i] - 1] == block[i]
    {
      assert affected[i] - 1 == at + i;
    }
  }

  /** The middle of a three-part concatenation sits right after the first
      part. */
  lemma BlockAt(pre: seq<string>, block: seq<string>, post: seq<string>)
    ensures Located(pre + block + post, |pre|, block)
  {
    var r := pre + block + post;
    forall i | 0 <= i < |block|
      ensures r[|pre| + i] == block[i]
    {
    }
  }

  /** The `insert_after_line` summary for a requested line `l >= 1` counts
      `l + 1, l + 2, ...`, one number per inserted line. */
  lemma InsertSummaryNumbers(before: string, line: Option<int>, content: string)
    requires line.Some? && line.value >= 1
    ensures var affected := InsertAfterLine(before, line, content).summary.affectedLines;
            |affected| == |SplitLines(content)| && CountsFrom(affected, line.value + 1)
  {
    assert OrElse(line, 0) == line.value;
  }

  /** Where the block sits in the line list produced by insertion: right
      after the requested line when it lies within the list, and after the
      last line otherwise. */
  lemma InsertLinesLocate(lines: seq<string>, line: int, block: seq<string>)
    requires line >= 1
    ensures var r := InsertLines(lines, line, block);
            |r| == |lines| + |block| && Located(r, Min(line, |lines|), block)
  {
    var n := |lines|;
    var k := ClampLine(line, n);
    var a := Min(line, n);
    assert Min(k, n) == a;
    assert InsertLines(lines, line, block) == lines[..a] + block + lines[a..];
    BlockAt(lines[..a], block, lines[a..]);
  }

  /** Where the block lands in the new text's lines: right after the
      requested line, or after the last line when the request lies past
      the end. */
  lemma InsertTextLocate(before: string, line: Option<int>, content: string)
    requires line.Some? && line.value >= 1
    requires InsertKeepsLines(before, line.value, content)
    ensures var nl := Lines(InsertAfterLine(before, line, content).text);
            var n := |Lines(before)|;
            |nl| == n + |SplitLines(content)| && Located(nl, Min(line.value, n), SplitLines(content))
  {
    var l := OrElse(line, 1);
    var ls := Lines(before);
    var block := SplitLines(content);
    var nl := Lines(InsertAfterLine(before, line, content).text);
    InsertAfterLineText(before, line, content);
    assert l == line.value && nl == InsertLines(ls, l, block);
    InsertLinesLocate(ls, l, block);
  }

  /** Within the file, the `insert_after_line` summary names exactly the
      lines the block now occupies. Past the end it does not: the block
      lands after the last line while the summary still counts from the
      line after the requested one. */
  lemma InsertSummaryLocatesBlock(before: string, line: Option<int>, content: string)
    requires line.Some? && line.value >= 1
    requires InsertKeepsLines(before, line.value, content)
    ensures var e := InsertAfterLine(before, line, content);
            var n := |Lines(before)|;
            var block := SplitLines(content);
            var affected := e.summary.affectedLines;
            && |affected| == |block|
            && |Lines(e.text)| == n + |block|
            && CountsFrom(affected, line.value + 1)
            && (line.value <= n ==> NamesLines(Lines(e.text), affected, block))
            && (line.value > n ==> Located(Lines(e.text), n, block))
  {
    var e := InsertAfterLine(before, line, content);
    var n := |Lines(before)|;
    InsertTextLocate(before, line, content);
    InsertSummaryNumbers(before, line, content);
    if line.value <= n {
      assert Min(line.value, n) == line.value;
      LocatedNamed(Lines(e.text), line.value, line.value + 1, SplitLines(content), e.summary.affectedLines);
    } else {
      assert Min(line.value, n) == n;
    }
  }

  /** For an in-file, non-reversed range, the `replace_range` summary lists
      `start..end`, and those line numbers of the edited line list hold the
      replacement for as long as it lasts. */
  lemma ReplaceSummaryLocatesReplacement(before: string, startLine: Option<int>, endLine: Option<int>, content: string)
    requires startLine.Some? && endLine.Some?
    requires 1 <= startLine.value <= endLine.value <= |Lines(before)|
    ensures var e := ReplaceRange(before, startLine, endLine, content);
            var nl := ReplaceLines(Lines(before), startLine.value, endLine.value, SplitLines(content));
            var affected := e.summary.affectedLines;
            && |affected| == endLine.value - startLine.value + 1
            && CountsFrom(affected, startLine.value)
            && NamesLines(nl, affected, SplitLines(content))
  {
    ReplaceSummaryNumbers(before, startLine, endLine, content);
    ReplacedNamed(Lines(before), startLine.value, endLine.value, SplitLines(content),
                  ReplaceRange(before, startLine, endLine, content).summary.affectedLines);
  }

  /** Line numbers counting up from the start of an in-file, non-reversed
      range name the replacement's lines in the edited list. */
  lemma ReplacedNamed(lines: seq<string>, s: int, e: int, repl: seq<string>, affected: seq<int>)
    requires 1 <= s <= e <= |lines|
    requires CountsFrom(affected, s)
    ensures NamesLines(ReplaceLines(lines, s, e, repl), affected, repl)
  {
    ReplaceLinesLocate(lines, s, e, repl);
    LocatedNamed(ReplaceLines(lines, s, e, repl), s - 1, s, repl, affected);
  }

  /** The `replace_range` summary for given bounds `s, e >= 1` counts
      `s, s + 1, ..., e`. */
  lemma ReplaceSummaryNumbers(before: string, startLine: Option<int>, endLine: Option<int>, content: string)
    requires startLine.Some? && endLine.Some? && startLine.value >= 1 && endLine.value >= 1
    ensures var affected := ReplaceRange(before, startLine, endLine, content).summary.affectedLines;
            && |affected| == (if startLine.value <= endLine.value then endLine.value - startLine.value + 1 else 0)
            && CountsFrom(affected, startLine.value)
  {
    assert OrElse(startLine, 1) == startLine.value && OrElse(endLine, 0) == endLine.value;
  }

  /** Replacing an in-file, non-reversed range puts the whole replacement
      at the start line. */
  lemma ReplaceLinesLocate(lines: seq<string>, s: int, e: int, repl: seq<string>)
    requires 1 <= s <= e <= |lines|
    ensures var r := ReplaceLines(lines, s, e, repl);
            |r| == |lines| - (e - s + 1) + |repl| && Located(r, s - 1, repl)
  {
    var n := |lines|;
    assert ClampLine(s, n) == s && ClampLine(e, n) == e;
    assert Min(s - 1, n) == s - 1 && Max(s - 1, Min(e, n)) == e;
    assert ReplaceLines(lines, s, e, repl) == SliceAssign(lines, s - 1, e, repl);
    BlockAt(lines[..s - 1], repl, lines[e..]);
  }
}

=== FILE: paths.dfy ===
/** Confinement of caller-supplied paths to the workspace root.

    A path is the sequence of its segments from the filesystem root, so `[]`
    is `/`. The workspace root is already resolved: every segment is a real
    name. Resolution is lexical (`..` drops the last segment, `.` and empty
    segments vanish); symbolic links are not modelled. */
module Paths {
  import opened Text

  const SLASH: char := '/'

  type Path = seq<string>

  /** A real directory entry name: not empty, not `.` or `..`, no slash. */
  predicate IsSegment(s: string)
  {
    s != [] && s != "." && s != ".." && SLASH !in s
  }

  /** A resolved absolute path: every segment is a real name. */
  predicate IsNormal(p: Path)
  {
    forall i :: 0 <= i < |p| ==> IsSegment(p[i])
  }

  /** One segment of lexical resolution. `..` at `/` stays at `/`. */
  function Step(p: Path, seg: string): Path
  {
    if seg == [] || seg == "." then p
    else if seg == ".." then (if p == [] then p else p[..|p| - 1])
    else p + [seg]
  }

  /** Resolves the segments one after the other, starting from `p`. */
  function Walk(p: Path, segs: seq<string>): (q: Path)
    requires IsNormal(p) && Free(segs, SLASH)
    ensures IsNormal(q)
    decreases |segs|
  {
    if segs == [] then p else Walk(Step(p, segs[0]), segs[1..])
  }

  /** `(root / rel).resolve()` without symbolic links: a `rel` that starts
      with a slash replaces the root altogether. */
  function Lexical(root: Path, rel: string): (p: Path)
    requires IsNormal(root)
    ensures IsNormal(p)
  {
    var segs := SplitAt(rel, SLASH);
    if |rel| > 0 && rel[0] == SLASH then Walk([], segs) else Walk(root, segs)
  }

  /** `str(p)` for an absolute path. */
  function Render(p: Path): string
  {
    [SLASH] + JoinWith(p, SLASH)
  }

  datatype Resolution = Resolved(path: Path) | Escaped(message: string)

  /** Resolves `rel` against `root` and accepts the result only when it is
      the root itself or the root is one of its ancestors. */
  function ResolveSafe(root: Path, rel: string): (r: Resolution)
    requires IsNormal(root)
    ensures r.Resolved? <==> root <= Lexical(root, rel)
    ensures r.Resolved? ==> r.path == Lexical(root, rel) && root <= r.path && IsNormal(r.path)
    ensures r.Escaped? ==> r.message == "Path outside WORKDIR is not allowed: " + Render(Lexical(root, rel))
  {
    var p := Lexical(root, rel);
    if !(root < p) && p != root then Escaped("Path outside WORKDIR is not allowed: " + Render(p))
    else Resolved(p)
  }

  /** `str(p.relative_to(root))`: `"."` for the root itself. */
  function RelativeTo(root: Path, p: Path): string
    requires root <= p
  {
    if p == root then "." else JoinWith(p[|root|..], SLASH)
  }

  /** `p.with_suffix(p.suffix + ".bak")`: whatever the suffix, the backup
      sits beside `p` under `p`'s name followed by `.bak`. */
  function BackupOf(p: Path): (b: Path)
    requires |p| >= 1
    ensures |b| == |p| && b[..|p| - 1] == p[..|p| - 1]
    ensures b[|b| - 1] == p[|p| - 1] + ".bak"
    ensures b != p
  {
    p[..|p| - 1] + [p[|p| - 1] + ".bak"]
  }

  /** Real names only extend the path they are resolved against. */
  lemma {:induction false} WalkDescends(p: Path, segs: seq<string>)
    requires IsNormal(p) && IsNormal(segs)
    ensures Free(segs, SLASH) && Walk(p, segs) == p + segs
    decreases |segs|
  {
    if segs != [] {
      assert Step(p, segs[0]) == p + [segs[0]];
      WalkDescends(p + [segs[0]], segs[1..]);
      assert p + [segs[0]] + segs[1..] == p + segs;
    }
  }

  /** Without `..`, resolution never climbs above where it started. */
  lemma {:induction false} WalkWithoutParent(p: Path, segs: seq<string>)
    requires IsNormal(p) && Free(segs, SLASH)
    requires forall i :: 0 <= i < |segs| ==> segs[i] != ".."
    ensures p <= Walk(p, segs)
    decreases |segs|
  {
    if segs != [] {
      var q := Step(p, segs[0]);
      assert p <= q;
      WalkWithoutParent(q, segs[1..]);
    }
  }

  /** A relative path with no `..` segment always stays in the workspace. */
  lemma DescendingPathResolves(root: Path, rel: string)
    requires IsNormal(root)
    requires rel == [] || rel[0] != SLASH
    requires forall i :: 0 <= i < |SplitAt(rel, SLASH)| ==> SplitAt(rel, SLASH)[i] != ".."
    ensures ResolveSafe(root, rel).Resolved?
  {
    WalkWithoutParent(root, SplitAt(rel, SLASH));
  }

  /** `"."` names the root itself. */
  lemma DotIsRoot(root: Path)
    requires IsNormal(root)
    ensures ResolveSafe(root, ".") == Resolved(root)
  {
    assert SplitAt(".", SLASH) == ["."] by {
      SplitAtPrefix(".", [], SLASH);
      assert "." + [] == ".";
    }
    assert ["."][1..] == [];
    assert Walk(root, ["."]) == Walk(Step(root, "."), []);
  }

  /** The segments below the root, joined with slashes, lead back down to
      the same path. */
  lemma BelowRootRoundTrip(root: Path, p: Path)
    requires IsNormal(root) && IsNormal(p) && root < p
    ensures ResolveSafe(root, JoinWith(p[|root|..], SLASH)) == Resolved(p)
  {
    var segs := p[|root|..];
    assert IsNormal(segs);
    var rel := JoinWith(segs, SLASH);
    JoinStartsWithFirst(segs, SLASH);
    assert rel[0] != SLASH;
    WalkDescends(root, segs);
    SplitAtJoin(segs, SLASH);
    assert root + segs == p;
    assert Lexical(root, rel) == p;
  }

  /** A join whose first piece is not empty starts with that piece. */
  lemma JoinStartsWithFirst(pieces: seq<string>, sep: char)
    requires |pieces| >= 1 && pieces[0] != []
    ensures var j := JoinWith(pieces, sep); |j| >= 1 && j[0] == pieces[0][0]
  {
    if |pieces| > 1 {
      assert JoinWith(pieces, sep) == pieces[0] + ([sep] + JoinWith(pieces[1..], sep));
    }
  }

  /** The path the tools report back, resolved again, names the same file:
      reporting relative to the root loses nothing. */
  lemma RelativeRoundTrip(root: Path, p: Path)
    requires IsNormal(root) && IsNormal(p) && root <= p
    ensures ResolveSafe(root, RelativeTo(root, p)) == Resolved(p)
  {
    if p == root {
      DotIsRoot(root);
    } else {
      BelowRootRoundTrip(root, p);
    }
  }

  /** Climbing out of the root to a sibling is refused. */
  lemma ParentToSiblingEscapes(root: Path, name: string)
    requires IsNormal(root) && |root| >= 1 && IsSegment(name) && name != root[|root| - 1]
    ensures ResolveSafe(root, JoinWith(["..", name], SLASH)).Escaped?
  {
    SplitAtJoin(["..", name], SLASH);
    var rel := JoinWith(["..", name], SLASH);
    assert rel[0] == '.';
    var up := root[..|root| - 1];
    assert Walk(root, ["..", name]) == Walk(up, [name]) by {
      assert ["..", name][1..] == [name];
    }
    assert Walk(up, [name]) == up + [name] by {
      assert [name][1..] == [];
    }
    assert (up + [name])[|root| - 1] != root[|root| - 1];
  }

  /** Climbing out of the root and straight back in is accepted: only the
      resolved result is checked, not the route to it. */
  lemma ParentAndBackResolves(root: Path, name: string)
    requires IsNormal(root) && |root| >= 1 && IsSegment(name)
    ensures ResolveSafe(root, JoinWith(["..", root[|root| - 1], name], SLASH)) == Resolved(root + [name])
  {
    var w := root[|root| - 1];
    var segs := ["..", w, name];
    SplitAtJoin(segs, SLASH);
    var rel := JoinWith(segs, SLASH);
    assert rel[0] == '.';
    var up := root[..|root| - 1];
    assert Walk(root, segs) == Walk(up, [w, name]) by {
      assert segs[1..] == [w, name];
    }
    WalkDescends(up, [w, name]);
    assert up + [w, name] == root + [name];
  }

  /** A path that starts with a slash resolves the same against any root:
      the root is discarded. */
  lemma AbsoluteIgnoresRoot(r1: Path, r2: Path, rel: string)
    requires IsNormal(r1) && IsNormal(r2) && |rel| > 0 && rel[0] == SLASH
    ensures Lexical(r1, rel) == Lexical(r2, rel)
  {
  }

  /** An absolute path ignores the root, and is accepted exactly when it
      lies within it. */
  lemma AbsolutePathChecked(root: Path, q: Path)
    requires IsNormal(root) && IsNormal(q)
    ensures ResolveSafe(root, Render(q)).Resolved? <==> root <= q
  {
    if q == [] {
      var segs: seq<string> := [[], []];
      assert JoinWith(segs, SLASH) == Render(q) by {
        assert segs[1..] == [[]];
      }
      SplitAtJoin(segs, SLASH);
      assert Walk([], segs) == [] by {
        assert segs[1..] == [[]];
        assert segs[1..][1..] == [];
      }
    } else {
      var segs := [[]] + q;
      assert Free(segs, SLASH);
      assert JoinWith(segs, SLASH) == Render(q) by {
        assert segs[1..] == q;
      }
      SplitAtJoin(segs, SLASH);
      assert Walk([], segs) == Walk([], q) by {
        assert segs[1..] == q;
      }
      WalkDescends([], q);
    }
  }
}

=== FILE: py_semantics.dfy ===
/** The pieces of Python value semantics the file tools lean on: optional
    arguments and their truthiness (`x or d`), `min`/`max`, the line clamp
    `max(1, min(n, x))`, `range(a, b)` and slice assignment `xs[lo:hi] = ys`. */
module PySemantics {

  /** An optional tool argument: `None` or a value. */
  datatype Option<+T> = None | Some(value: T)

  /** Python truthiness of an optional integer: `None` and `0` are falsy. */
  predicate Truthy(x: Option<int>)
  {
    x.Some? && x.value != 0
  }

  /** Python truthiness of an optional string: `None` and `""` are falsy. */
  predicate TruthyText(x: Option<string>)
  {
    x.Some? && x.value != ""
  }

  /** The expression `x or d` for an optional integer. */
  function OrElse(x: Option<int>, d: int): int
  {
    if Truthy(x) then x.value else d
  }

  function Min(a: int, b: int): int
  {
    if a <= b then a else b
  }

  function Max(a: int, b: int): int
  {
    if a >= b then a else b
  }

  /** `max(1, min(n, x))`: the clamp both tools apply to a 1-based line
      number against a file of `n` lines. For an empty file it yields 1. */
  function ClampLine(x: int, n: int): (k: int)
    ensures k >= 1
    ensures n >= 1 ==> k <= n
    ensures 1 <= x <= n ==> k == x
    ensures n >= 1 && x > n ==> k == n
    ensures x < 1 ==> k == 1
    ensures n < 1 ==> k == 1
  {
    Max(1, Min(n, x))
  }

  /** `list(range(a, b))`: the integers from `a` up to but excluding `b`. */
  function Range(a: int, b: int): (r: seq<int>)
    ensures |r| == if a < b then b - a else 0
    ensures forall i :: 0 <= i < |r| ==> r[i] == a + i
    decreases b - a
  {
    if a < b then [a] + Range(a + 1, b) else []
  }

  /** `xs[lo:hi] = ys` for non-negative bounds: both bounds are cut down to
      `|xs|`, and a stop at or before the start deletes nothing, so `ys` is
      then inserted at `lo`. */
  function SliceAssign<T>(xs: seq<T>, lo: nat, hi: nat, ys: seq<T>): (r: seq<T>)
    ensures var a := Min(lo, |xs|);
            var b := Max(a, Min(hi, |xs|));
            && |r| == |xs| - (b - a) + |ys|
            && r[..a] == xs[..a]
            && r[a..a + |ys|] == ys
            && r[a + |ys|..] == xs[b..]
  {
    var a := Min(lo, |xs|);
    var b := Max(a, Min(hi, |xs|));
    xs[..a] + ys + xs[b..]
  }

  /** An empty slice `xs[k:k] = ys` is a pure insertion: taking the inserted
      block back out restores `xs`, and nothing is lost. */
  lemma SliceInsertRestores<T>(xs: seq<T>, k: nat, ys: seq<T>)
    ensures var r := SliceAssign(xs, k, k, ys);
            var a := Min(k, |xs|);
            && |r| == |xs| + |ys|
            && r[..a] + r[a + |ys|..] == xs
  {
    var a := Min(k, |xs|);
    assert xs[..a] + xs[a..] == xs;
  }
}

=== FILE: read_file.dfy ===
/** The `read_file` tool: resolves the path inside the workspace, reads the
    file, clamps the requested line range into it and returns the slice,
    optionally numbered, with the line count and the digest of the whole
    file. The filesystem is a map from resolved paths to the texts stored
    there, which are read with universal newlines; the digest function is a
    parameter and only its equalities matter. */
module ReadTool {
  import opened PySemantics
  import opened Text
  import opened Paths

  /** Regular files by resolved path. Directories are not entries. */
  type FileSystem = map<Path, string>

  datatype ReadArgs = ReadArgs(path: string, startLine: Option<int>, endLine: Option<int>, withLineNumbers: bool)

  datatype ReadResult =
    | ReadOk(message: string, path: string, totalLines: nat, sha256: string, content: string)
    | ReadFailed(message: string)
  {
    function Status(): string
    {
      if ReadOk? then "ok" else "error"
    }
  }

  /** `str(e)` for the `IsADirectoryError` that reading a directory (the
      root itself) raises: errno 21 and the quoted absolute path. */
  function DirectoryMessage(p: Path): string
  {
    "[Errno 21] Is a directory: '" + Render(p) + "'"
  }

  /** The range actually read from a file of `total` lines: the start
      defaults to 1 and the end to the last line, both are clamped into the
      file, and the end is raised to the start if it falls before it. */
  function ReadBounds(total: nat, startLine: Option<int>, endLine: Option<int>): (b: (int, int))
    requires total >= 1
    ensures 1 <= b.0 <= b.1 <= total
  {
    var s := Max(1, Min(total, OrElse(startLine, 1)));
    var e := Max(s, Min(total, OrElse(endLine, total)));
    (s, e)
  }

  /** `f"{s + i}: {t}"` for each line `t` of the slice at index `i`. */
  function NumberLines(slice: seq<string>, s: nat): (r: seq<string>)
    ensures |r| == |slice|
  {
    seq(|slice|, i requires 0 <= i < |slice| => NatToDecimal(s + i) + ": " + slice[i])
  }

  /** The length of the run of decimal digits `t` starts with. */
  function LeadingDigits(t: string): (n: nat)
    ensures n <= |t|
    decreases |t|
  {
    if t != [] && '0' <= t[0] <= '9' then 1 + LeadingDigits(t[1..]) else 0
  }

  /** Reads a numbered line back: the number before the first `": "` that
      follows its leading digits, and the text after it. */
  function ParseNumbered(t: string): Option<(nat, string)>
  {
    var k := LeadingDigits(t);
    if 1 <= k && k + 2 <= |t| && t[k..k + 2] == ": " && IsDigits(t[..k])
    then Some((DecimalValue(t[..k]), t[k + 2..]))
    else None
  }

  /** Digits followed by a non-digit: the leading run is exactly the digits. */
  lemma {:induction false} LeadingDigitsOf(d: string, rest: string)
    requires IsDigits(d) && rest != [] && !('0' <= rest[0] <= '9')
    ensures LeadingDigits(d + rest) == |d|
    decreases |d|
  {
    if d == [] {
      assert d + rest == rest;
    } else {
      assert (d + rest)[1..] == d[1..] + rest;
      LeadingDigitsOf(d[1..], rest);
    }
  }

  /** A numbered line reads back to its number and its text. */
  lemma NumberedLineParses(n: nat, x: string)
    ensures ParseNumbered(NatToDecimal(n) + ": " + x) == Some((n, x))
  {
    ParsePrefixed(NatToDecimal(n), x);
    DecimalRoundTrip(n);
  }

  /** Any non-empty run of digits, then `": "`, reads back to the value of
      the digits and the text after the separator. */
  lemma ParsePrefixed(d: string, x: string)
    requires |d| >= 1 && IsDigits(d)
    ensures ParseNumbered(d + ": " + x) == Some((DecimalValue(d), x))
  {
    var t := d + ": " + x;
    assert t == d + (": " + x);
    LeadingDigitsOf(d, ": " + x);
    SeparatorAt(d, x);
  }

  /** The pieces of `d + ": " + x` around the separator. */
  lemma SeparatorAt(d: string, x: string)
    ensures var t := d + ": " + x;
            && t[..|d|] == d
            && t[|d|..|d| + 2] == ": "
            && t[|d| + 2..] == x
  {
  }

  /** Every numbered line reads back to its absolute line number and the
      line of the slice it was made from. */
  lemma NumberLinesParse(slice: seq<string>, s: nat)
    ensures forall i :: 0 <= i < |slice| ==> ParseNumbered(NumberLines(slice, s)[i]) == Some((s + i, slice[i]))
  {
    forall i | 0 <= i < |slice|
      ensures ParseNumbered(NumberLines(slice, s)[i]) == Some((s + i, slice[i]))
    {
      NumberedLineParses(s + i, slice[i]);
    }
  }

  /** The body the tool returns for lines `s..e` (1-based, inclusive). */
  function Body(lines: seq<string>, s: int, e: int, numbered: bool): string
    requires 1 <= s <= e <= |lines|
  {
    var slice := lines[s - 1..e];
    if numbered then JoinLines(NumberLines(slice, s)) else JoinLines(slice)
  }

  /** The text of the file `path` names, as `read_file` reads it. */
  function TextRead(root: Path, fs: FileSystem, path: string): string
    requires IsNormal(root)
    requires ResolveSafe(root, path).Resolved? && ResolveSafe(root, path).path in fs
  {
    Universal(fs[ResolveSafe(root, path).path])
  }

  function ReadFile(root: Path, fs: FileSystem, hash: string -> string, args: ReadArgs): (r: ReadResult)
    requires IsNormal(root)
    ensures var res := ResolveSafe(root, args.path);
            r.ReadOk? <==> res.Resolved? && res.path != root && res.path in fs
    ensures var res := ResolveSafe(root, args.path);
            && (res.Escaped? ==> r == ReadFailed(res.message))
            && (res.Resolved? && res.path == root ==> r == ReadFailed(DirectoryMessage(root)))
    ensures r.ReadOk? ==>
              var p := ResolveSafe(root, args.path).path;
              var raw := Universal(fs[p]);
              && r.sha256 == hash(raw)
              && r.totalLines == |Lines(raw)|
              && r.path == RelativeTo(root, p)
              && (r.totalLines == 0 <==> fs[p] == [])
  {
    match ResolveSafe(root, args.path)
    case Escaped(msg) => ReadFailed(msg)
    case Resolved(p) =>
      if p == root then ReadFailed(DirectoryMessage(p))
      else if p !in fs then ReadFailed("file not found: " + args.path)
      else
        var raw := Universal(fs[p]);
        var lines := Lines(raw);
        var total := |lines|;
        LinesEmpty(raw);
        if total == 0 then ReadOk("empty file", RelativeTo(root, p), 0, hash(raw), "")
        else
          var (s, e) := ReadBounds(total, args.startLine, args.endLine);
          ReadOk("success", RelativeTo(root, p), total, hash(raw), Body(lines, s, e, args.withLineNumbers))
  }

  /** The range honours any request that lies within the file, and with
      no bounds at all covers the whole file. Out-of-range requests shrink
      to the nearest lines instead of failing. */
  lemma ReadBoundsHonoursRequest(total: nat, startLine: Option<int>, endLine: Option<int>)
    requires total >= 1
    ensures startLine.Some? && endLine.Some? && 1 <= startLine.value <= endLine.value <= total ==>
              ReadBounds(total, startLine, endLine) == (startLine.value, endLine.value)
    ensures startLine.None? && endLine.None? ==> ReadBounds(total, startLine, endLine) == (1, total)
    ensures startLine.Some? && startLine.value > total ==> ReadBounds(total, startLine, endLine) == (total, total)
    ensures endLine.Some? && 1 <= endLine.value < OrElse(startLine, 1) ==>
              ReadBounds(total, startLine, endLine).1 == ReadBounds(total, startLine, endLine).0
  {
  }

  /** A missing file is an error, whatever range was asked for. */
  lemma ReadMissingFile(root: Path, fs: FileSystem, hash: string -> string, args: ReadArgs)
    requires IsNormal(root)
    requires var res := ResolveSafe(root, args.path); res.Resolved? && res.path != root && res.path !in fs
    ensures ReadFile(root, fs, hash, args) == ReadFailed("file not found: " + args.path)
  {
  }

  /** An empty file reads as no lines and empty content, with the digest
      of the empty text, whatever range was asked for. */
  lemma ReadEmptyFile(root: Path, fs: FileSystem, hash: string -> string, args: ReadArgs)
    requires IsNormal(root)
    requires var res := ResolveSafe(root, args.path); res.Resolved? && res.path != root
    requires ResolveSafe(root, args.path).path in fs && fs[ResolveSafe(root, args.path).path] == []
    ensures var r := ReadFile(root, fs, hash, args);
            r.ReadOk? && r.content == [] && r.totalLines == 0 && r.sha256 == hash([])
  {
  }

  /** A non-empty file reads as lines `s..e` of the text read, at least one
      of them, joined by newlines; numbered, each returned line `i` is line
      `s + i` of that text prefixed by its number. The digest is the whole
      text's, not the slice's. */
  lemma ReadSlice(root: Path, fs: FileSystem, hash: string -> string, args: ReadArgs)
    requires IsNormal(root)
    requires var res := ResolveSafe(root, args.path); res.Resolved? && res.path != root
    requires ResolveSafe(root, args.path).path in fs && fs[ResolveSafe(root, args.path).path] != []
    ensures var raw := TextRead(root, fs, args.path);
            var lines := Lines(raw);
            var r := ReadFile(root, fs, hash, args);
            var (s, e) := ReadBounds(|lines|, args.startLine, args.endLine);
            && r.ReadOk? && r.sha256 == hash(raw) && r.totalLines == |lines|
            && 1 <= s <= e <= |lines|
            && (!args.withLineNumbers ==> r.content == JoinLines(lines[s - 1..e]))
            && (args.withLineNumbers ==>
                  && |Lines(r.content)| == e - s + 1
                  && forall i :: 0 <= i < e - s + 1 ==>
                       Lines(r.content)[i] == NatToDecimal(s + i) + ": " + lines[s - 1 + i])
  {
    var lines := Lines(TextRead(root, fs, args.path));
    ReadSliceBody(root, fs, hash, args);
    if args.withLineNumbers {
      ReadSliceNumbered(root, fs, hash, args);
    }
  }

  /** The numbered half of `ReadSlice`. */
  lemma ReadSliceNumbered(root: Path, fs: FileSystem, hash: string -> string, args: ReadArgs)
    requires IsNormal(root) && args.withLineNumbers
    requires var res := ResolveSafe(root, args.path); res.Resolved? && res.path != root
    requires ResolveSafe(root, args.path).path in fs && fs[ResolveSafe(root, args.path).path] != []
    ensures var lines := Lines(TextRead(root, fs, args.path));
            var r := ReadFile(root, fs, hash, args);
            |lines| >= 1 &&
            var (s, e) := ReadBounds(|lines|, args.startLine, args.endLine);
            && |Lines(r.content)| == e - s + 1
            && forall i :: 0 <= i < e - s + 1 ==>
                 Lines(r.content)[i] == NatToDecimal(s + i) + ": " + lines[s - 1 + i]
  {
    var lines := Lines(TextRead(root, fs, args.path));
    ReadSliceBody(root, fs, hash, args);
    LinesFree(TextRead(root, fs, args.path));
    var (s, e) := ReadBounds(|lines|, args.startLine, args.endLine);
    NumberedBody(lines, s, e, ReadFile(root, fs, hash, args).content);
  }

  /** The file half of `ReadSlice`: what a successful read of a non-empty
      file returns, the body still unnumbered or numbered as asked. */
  lemma ReadSliceBody(root: Path, fs: FileSystem, hash: string -> string, args: ReadArgs)
    requires IsNormal(root)
    requires var res := ResolveSafe(root, args.path); res.Resolved? && res.path != root
    requires ResolveSafe(root, args.path).path in fs && fs[ResolveSafe(root, args.path).path] != []
    ensures var raw := TextRead(root, fs, args.path);
            var lines := Lines(raw);
            var r := ReadFile(root, fs, hash, args);
            && |lines| >= 1
            && var (s, e) := ReadBounds(|lines|, args.startLine, args.endLine);
               && r.ReadOk? && r.sha256 == hash(raw) && r.totalLines == |lines|
               && r.content == Body(lines, s, e, args.withLineNumbers)
  {
    ReadBody(root, fs, hash, args);
  }

  /** The numbered body of lines `s..e` splits back into those lines, each
      prefixed by its number. */
  lemma NumberedBody(lines: seq<string>, s: int, e: int, content: string)
    requires Free(lines, NL) && 1 <= s <= e <= |lines|
    requires content == Body(lines, s, e, true)
    ensures && |Lines(content)| == e - s + 1
            && forall i :: 0 <= i < e - s + 1 ==> Lines(content)[i] == NatToDecimal(s + i) + ": " + lines[s - 1 + i]
  {
    var slice := lines[s - 1..e];
    NumberedReadsBack(slice, s);
    var ls := NumberLines(slice, s);
    assert Lines(content) == ls;
    forall i | 0 <= i < e - s + 1
      ensures ls[i] == NatToDecimal(s + i) + ": " + lines[s - 1 + i]
    {
      assert slice[i] == lines[s - 1 + i];
    }
  }

  /** The content of a successful read of a non-empty file is the body
      of the clamped range. */
  lemma ReadBody(root: Path, fs: FileSystem, hash: string -> string, args: ReadArgs)
    requires IsNormal(root)
    requires var res := ResolveSafe(root, args.path); res.Resolved? && res.path != root
    requires ResolveSafe(root, args.path).path in fs && fs[ResolveSafe(root, args.path).path] != []
    ensures var lines := Lines(TextRead(root, fs, args.path));
            && |lines| >= 1
            && var (s, e) := ReadBounds(|lines|, args.startLine, args.endLine);
               ReadFile(root, fs, hash, args).content == Body(lines, s, e, args.withLineNumbers)
  {
    LinesEmpty(TextRead(root, fs, args.path));
  }

  /** Numbered lines never hold a newline and never are empty, so the
      numbered body splits back into exactly the numbered lines. */
  lemma NumberedReadsBack(slice: seq<string>, s: nat)
    requires Free(slice, NL) && |slice| >= 1
    ensures Lines(JoinLines(NumberLines(slice, s))) == NumberLines(slice, s)
  {
    var numbered := NumberLines(slice, s);
    assert Free(numbered, NL) by {
      forall i | 0 <= i < |numbered|
        ensures NL !in numbered[i]
      {
        var d := NatToDecimal(s + i);
        assert numbered[i] == d + ": " + slice[i];
        assert NL !in d;
      }
    }
    assert numbered[|numbered| - 1] != [];
    LinesOfJoined(numbered);
  }
}

=== FILE: scenarios.dfy ===
/** Worked cases of both tools: end-to-end calls of each mode and of a
    read, and the corners of the line arithmetic, stated for any lines
    `a`, `b`, ... that hold no line break. */
module Scenarios {
  import opened PySemantics
  import opened Text
  import opened Paths
  import opened Edits
  import opened ReadTool
  import opened WriteTool

  /** A line: text without a line break, `\n` or `\r`. */
  predicate IsLine(t: string)
  {
    NL !in t && CR !in t
  }

  /** A single non-empty line is its own only line, whether read from a
      file or split from the content, and it ends clean. */
  lemma OneLine(x: string)
    requires IsLine(x) && x != []
    ensures Lines(x) == [x] && SplitLines(x) == [x] && !EndsWithNewline(x) && EndsClean(x)
  {
    assert JoinLines([x]) == x;
    LinesOfJoined([x]);
    SplitLinesPlain(x);
    PlainEndsClean(x);
  }

  /** A file name directly under the root resolves to that file. */
  lemma NameResolves(root: Path, name: string)
    requires IsNormal(root) && IsSegment(name)
    ensures ResolveSafe(root, name) == Resolved(root + [name])
  {
    RelativeRoundTrip(root, root + [name]);
    assert (root + [name])[|root|..] == [name];
  }

  /** Writing a new file: the whole content is written, no backup even when
      asked for, and the result carries the content's digest. */
  lemma CreateFile(root: Path, fs: FileSystem, hash: string -> string, name: string, content: string)
    requires IsNormal(root) && IsSegment(name) && root + [name] !in fs && content != []
    ensures var c := WriteFile(root, fs, hash, WriteArgs(name, Overwrite, content, None, None, None, None, true));
            && c.result.Applied?
            && c.result.newSha256 == hash(content)
            && c.writes == [FileWrite(root + [name], content)]
  {
    NameResolves(root, name);
  }

  /** A wrong base digest on an existing file is a conflict, whatever the
      mode, and the file stays as it is. */
  lemma WrongDigestConflicts(root: Path, fs: FileSystem, hash: string -> string, name: string, args: WriteArgs)
    requires IsNormal(root) && IsSegment(name) && root + [name] in fs
    requires args.path == name && args.baseSha256.Some?
    requires args.baseSha256.value != [] && args.baseSha256.value != hash(Universal(fs[root + [name]]))
    ensures var c := WriteFile(root, fs, hash, args);
            c.result.Conflict? && Commit(fs, c.writes) == fs
  {
    NameResolves(root, name);
  }

  /** Inserting one line into an unterminated file: the file reads back as
      the inserted line list, still unterminated, and the summary counts
      one line from the request. */
  lemma InsertOneLine(ls: seq<string>, line: int, x: string)
    requires Free(ls, NL) && |ls| >= 1 && ls[|ls| - 1] != []
    requires IsLine(x) && x != []
    ensures var e := Edits.InsertAfterLine(JoinLines(ls), Some(line), x);
            && Lines(e.text) == InsertLines(ls, line, [x])
            && !EndsWithNewline(e.text)
            && e.summary.affectedLines == [line + 1]
  {
    InsertOneLineText(ls, line, x);
    InsertOneLineSummary(JoinLines(ls), line, x);
  }

  /** The summary half of `InsertOneLine`: one number, the line after the
      requested one. */
  lemma InsertOneLineSummary(before: string, line: int, x: string)
    requires IsLine(x) && x != []
    ensures Edits.InsertAfterLine(before, Some(line), x).summary.affectedLines == [line + 1]
  {
    assert |SplitLines(x)| == 1 by {
      OneLine(x);
    }
    assert OrElse(Some(line), 0) == line;
    assert Range(line + 1, line + 2) == [line + 1];
  }

  /** The text half of `InsertOneLine`. */
  lemma InsertOneLineText(ls: seq<string>, line: int, x: string)
    requires Free(ls, NL) && |ls| >= 1 && ls[|ls| - 1] != []
    requires IsLine(x) && x != []
    ensures var e := Edits.InsertAfterLine(JoinLines(ls), Some(line), x);
            && Lines(e.text) == InsertLines(ls, line, [x])
            && !EndsWithNewline(e.text)
  {
    var before := JoinLines(ls);
    LinesOfJoined(ls);
    OneLine(x);
    assert InsertKeepsLines(before, OrElse(Some(line), 1), x);
    InsertAfterLineText(before, Some(line), x);
    assert InsertLines(ls, OrElse(Some(line), 1), [x]) == InsertLines(ls, line, [x]);
  }

  /** Replacing a range of an unterminated file by one line: the file reads
      back as the replaced line list, and the summary is the requested
      range. (Bounds of 0 are falsy, so they are excluded here.) */
  lemma ReplaceByLine(ls: seq<string>, startLine: int, endLine: int, x: string)
    requires Free(ls, NL) && |ls| >= 1 && ls[|ls| - 1] != []
    requires startLine >= 1 && endLine >= 1
    requires IsLine(x) && x != []
    ensures var e := Edits.ReplaceRange(JoinLines(ls), Some(startLine), Some(endLine), x);
            && Lines(e.text) == ReplaceLines(ls, startLine, endLine, [x])
            && e.summary.affectedLines == Range(startLine, endLine + 1)
  {
    ReplaceByLineText(ls, startLine, endLine, x);
    ReplaceByLineSummary(ls, startLine, endLine, x);
  }

  /** The text half of `ReplaceByLine`. */
  lemma ReplaceByLineText(ls: seq<string>, startLine: int, endLine: int, x: string)
    requires Free(ls, NL) && |ls| >= 1 && ls[|ls| - 1] != []
    requires startLine >= 1 && endLine >= 1
    requires IsLine(x) && x != []
    ensures Lines(Edits.ReplaceRange(JoinLines(ls), Some(startLine), Some(endLine), x).text)
         == ReplaceLines(ls, startLine, endLine, [x])
  {
    LinesOfJoined(ls);
    OneLine(x);
    ReplaceRangeText(JoinLines(ls), Some(startLine), Some(endLine), x);
    assert OrElse(Some(startLine), 1) == startLine;
  }

  /** The summary half of `ReplaceByLine`: given bounds are reported as
      they were requested. */
  lemma ReplaceByLineSummary(ls: seq<string>, startLine: int, endLine: int, x: string)
    requires startLine >= 1 && endLine >= 1
    ensures Edits.ReplaceRange(JoinLines(ls), Some(startLine), Some(endLine), x).summary.affectedLines
         == Range(startLine, endLine + 1)
  {
    assert OrElse(Some(startLine), 1) == startLine && OrElse(Some(endLine), 0) == endLine;
  }

  /** Inserting after line 1 of a three-line file puts the new line second,
      and the summary names line 2. */
  lemma InsertAfterFirstLine(a: string, b: string, c: string, x: string)
    requires IsLine(a) && IsLine(b) && IsLine(c) && IsLine(x) && c != [] && x != []
    ensures var e := Edits.InsertAfterLine(JoinLines([a, b, c]), Some(1), x);
            && Lines(e.text) == [a, x, b, c]
            && !EndsWithNewline(e.text)
            && e.summary.affectedLines == [2]
  {
    var ls := [a, b, c];
    InsertLinesPlacement(ls, 1, [x]);
    assert ClampLine(1, 3) == 1 && ls[..1] == [a] && ls[1..] == [b, c];
    assert [a] + [x] + [b, c] == [a, x, b, c];
    InsertOneLine(ls, 1, x);
  }

  /** Inserting after a line past the end appends the block, while the
      summary names the line after the requested one. */
  lemma InsertPastEnd(a: string, b: string, c: string, x: string, line: int)
    requires IsLine(a) && IsLine(b) && IsLine(c) && IsLine(x) && c != [] && x != [] && line > 3
    ensures var e := Edits.InsertAfterLine(JoinLines([a, b, c]), Some(line), x);
            && Lines(e.text) == [a, b, c, x]
            && e.summary.affectedLines == [line + 1]
  {
    var ls := [a, b, c];
    InsertLinesPlacement(ls, line, [x]);
    assert ClampLine(line, 3) == 3 && ls[..3] == ls && ls[3..] == [];
    assert ls + [x] + [] == [a, b, c, x];
    InsertOneLine(ls, line, x);
  }

  /** Replacing lines 2 to 3 of a four-line file by one line leaves three,
      and the summary lists both replaced line numbers. */
  lemma ReplaceMiddle(a: string, b: string, c: string, d: string, y: string)
    requires IsLine(a) && IsLine(b) && IsLine(c) && IsLine(d) && IsLine(y)
    requires d != [] && y != []
    ensures var e := Edits.ReplaceRange(JoinLines([a, b, c, d]), Some(2), Some(3), y);
            && Lines(e.text) == [a, y, d]
            && e.summary.affectedLines == [2, 3]
  {
    var ls := [a, b, c, d];
    assert ReplaceLines(ls, 2, 3, [y]) == [a, y, d] by {
      assert ReplaceLines(ls, 2, 3, [y]) == ls[..1] + [y] + ls[3..];
      assert ls[..1] == [a] && ls[3..] == [d];
    }
    assert Range(2, 4) == [2, 3];
    ReplaceByLine(ls, 2, 3, y);
  }

  /** Validation does not compare the bounds of a range: a reversed one
      passes. */
  lemma ReversedRangeValid(args: WriteArgs)
    requires args.mode == WriteMode.ReplaceRange && LineArgsInBounds(args)
    requires args.startLine.Some? && args.endLine.Some? && args.endLine.value < args.startLine.value
    ensures ValidateModeFields(args).Valid?
  {
  }

  /** A reversed range inserts the replacement before the start line
      without deleting anything, and its summary is empty. */
  lemma ReversedRange(a: string, b: string, c: string, x: string)
    requires IsLine(a) && IsLine(b) && IsLine(c) && IsLine(x) && c != [] && x != []
    ensures var e := Edits.ReplaceRange(JoinLines([a, b, c]), Some(3), Some(1), x);
            && Lines(e.text) == [a, b, x, c]
            && e.summary.affectedLines == []
  {
    var ls := [a, b, c];
    assert ReplaceLines(ls, 3, 1, [x]) == [a, b, x, c] by {
      assert ReplaceLines(ls, 3, 1, [x]) == ls[..2] + [x] + ls[2..];
      assert ls[..2] == [a, b] && ls[2..] == [c];
    }
    assert Range(3, 2) == [];
    ReplaceByLine(ls, 3, 1, x);
  }

  /** A reversed request whose bounds both lie at or past the last line
      clamps to that line and replaces it, while its summary is empty: the
      edit deletes a line it does not report. */
  lemma ReversedPastEnd(a: string, b: string, c: string, x: string, startLine: int, endLine: int)
    requires IsLine(a) && IsLine(b) && IsLine(c) && IsLine(x) && c != [] && x != []
    requires 3 <= endLine < startLine
    ensures var e := Edits.ReplaceRange(JoinLines([a, b, c]), Some(startLine), Some(endLine), x);
            && Lines(e.text) == [a, b, x]
            && e.summary.affectedLines == []
  {
    var ls := [a, b, c];
    assert ReplaceLines(ls, startLine, endLine, [x]) == [a, b, x] by {
      assert ClampLine(startLine, 3) == 3 && ClampLine(endLine, 3) == 3;
      assert ReplaceLines(ls, startLine, endLine, [x]) == ls[..2] + [x] + ls[3..];
      assert ls[..2] == [a, b] && ls[3..] == [];
    }
    assert Range(startLine, endLine + 1) == [];
    ReplaceByLine(ls, startLine, endLine, x);
  }

  /** The content is split by `splitlines`, which also breaks at `\r`:
      replacing the last line `b` of `a\nb` by `b\r` gives the text back
      unchanged. */
  lemma CarriageReturnReplaceKeepsText(a: string, b: string)
    requires IsLine(a) && IsLine(b) && b != []
    ensures Edits.ReplaceRange(JoinLines([a, b]), Some(2), Some(2), b + [CR]).text == JoinLines([a, b])
  {
    var before := JoinLines([a, b]);
    JoinTwo(a, b);
    assert SplitLines(b + [CR]) == [b] by {
      UniversalPlainPrefix(b, [CR]);
      assert Universal([CR]) == [NL];
      assert JoinLines([b]) == b;
      LinesOfTerminated([b]);
    }
    assert KeepTerminator(before, b + [CR]) == [];
    assert ReplaceLines([a, b], 2, 2, [b]) == [a, b] by {
      assert ReplaceLines([a, b], 2, 2, [b]) == [a, b][..1] + [b] + [a, b][2..];
    }
    LinesOfJoined([a, b]);
  }

  /** So that replacement is a no-op for the tool: nothing is written. */
  lemma CarriageReturnReplaceIsNoOp(root: Path, fs: FileSystem, hash: string -> string, name: string, a: string, b: string)
    requires IsNormal(root) && IsSegment(name)
    requires IsLine(a) && IsLine(b) && b != []
    requires root + [name] in fs && fs[root + [name]] == JoinLines([a, b])
    ensures var c := WriteFile(root, fs, hash, WriteArgs(name, WriteMode.ReplaceRange, b + [CR], None, None, Some(2), Some(2), true));
            c.result.NoOp? && c.writes == []
  {
    var p := root + [name];
    var args := WriteArgs(name, WriteMode.ReplaceRange, b + [CR], None, None, Some(2), Some(2), true);
    NameResolves(root, name);
    StoredTwoLines(fs, p, a, b);
    CarriageReturnReplaceKeepsText(a, b);
    assert ApplyMode(JoinLines([a, b]), args).text == JoinLines([a, b]);
    NoOpWritesNothing(root, fs, hash, args);
  }

  /** A file stored as two lines without carriage returns reads back as
      stored. */
  lemma StoredTwoLines(fs: FileSystem, p: Path, a: string, b: string)
    requires IsLine(a) && IsLine(b)
    requires p in fs && fs[p] == JoinLines([a, b])
    ensures OldText(fs, p) == JoinLines([a, b])
  {
    JoinTwo(a, b);
    UniversalKeepsPlain(JoinLines([a, b]));
  }

  /** Inserting a lone `\r` after the last line of an unterminated file: the
      block is one empty line, but no final newline covers it, so the file
      reads back without it. The content does not end clean. */
  lemma InsertLoneCarriageReturn(a: string)
    requires IsLine(a) && a != []
    ensures var e := Edits.InsertAfterLine(a, Some(1), [CR]);
            && InsertLines(Lines(a), 1, SplitLines([CR])) == [a, []]
            && e.text == a + [NL]
            && Lines(e.text) == [a]
            && !EndsClean([CR])
  {
    OneLine(a);
    assert SplitLines([CR]) == [[]] by {
      assert Universal([CR]) == [NL];
      assert JoinLines([[]]) + [NL] == [NL];
      LinesOfTerminated([[]]);
    }
    assert InsertLines([a], 1, [[]]) == [a, []] by {
      assert InsertLines([a], 1, [[]]) == [a][..1] + [[]] + [a][1..];
    }
    assert JoinLines([a, []]) == a + [NL] by {
      JoinTwo(a, []);
      assert a + [NL] + [] == a + [NL];
    }
    assert JoinLines([a]) == a;
    LinesOfTerminated([a]);
  }

  /** Overwriting `a\nb` with `a\r\nb` under the file's digest is applied,
      yet the file reads as before, so the same base digest passes the lock
      again. */
  lemma CarriageReturnKeepsDigest(root: Path, fs: FileSystem, hash: string -> string, name: string,
                                  a: string, b: string, second: WriteArgs)
    requires IsNormal(root) && IsSegment(name)
    requires IsLine(a) && IsLine(b)
    requires root + [name] in fs && fs[root + [name]] == JoinLines([a, b])
    requires second.path == name && second.baseSha256 == Some(hash(JoinLines([a, b])))
    ensures var first := WriteArgs(name, Overwrite, a + [CR, NL] + b, Some(hash(JoinLines([a, b]))), None, None, None, false);
            var c := WriteFile(root, fs, hash, first);
            && c.result.Applied?
            && !WriteFile(root, Commit(fs, c.writes), hash, second).result.Conflict?
  {
    var first := WriteArgs(name, Overwrite, a + [CR, NL] + b, Some(hash(JoinLines([a, b]))), None, None, None, false);
    var p := root + [name];
    NameResolves(root, name);
    CarriageReturnReadsAsNewline(a, b);
    assert OldText(fs, p) == JoinLines([a, b]);
    assert ApplyMode(OldText(fs, p), first).text == a + [CR, NL] + b;
    UnchangedReadPassesLock(root, fs, hash, first, second);
  }

  /** `a\r\nb` differs from `a\nb`, the file text, yet reads as it. */
  lemma CarriageReturnReadsAsNewline(a: string, b: string)
    requires IsLine(a) && IsLine(b)
    ensures var before := JoinLines([a, b]);
            var after := a + [CR, NL] + b;
            && Universal(before) == before
            && after != before
            && Universal(after) == before
  {
    JoinTwo(a, b);
    UniversalKeepsPlain(a + [NL] + b);
    assert (a + [CR, NL] + b)[|a|] == CR && (a + [NL] + b)[|a|] == NL;
    CrLfReadsAsNewline(a, b);
  }

  /** Between two lines, `\r\n` reads as `\n`. */
  lemma CrLfReadsAsNewline(a: string, b: string)
    requires CR !in a && CR !in b
    ensures Universal(a + [CR, NL] + b) == a + [NL] + b
  {
    var t := [CR, NL] + b;
    assert a + [CR, NL] + b == a + t;
    UniversalPlainPrefix(a, t);
    assert t[0] == CR && t[1] == NL && t[2..] == b;
    UniversalKeepsPlain(b);
    assert a + ([NL] + b) == a + [NL] + b;
  }

  /** A lone `\r` between two lines: reading and `splitlines` both see two
      lines, but the `overwrite` and `append` summaries count `\n` alone and
      name line 1 only. */
  lemma CarriageReturnSummaryUndercounts(a: string, b: string)
    requires IsLine(a) && IsLine(b) && a != [] && b != []
    ensures var t := a + [CR] + b;
            && SplitLines(t) == [a, b]
            && Lines(Universal(OverwriteAll(t).text)) == [a, b]
            && OverwriteAll(t).summary.affectedLines == [1]
    ensures var e := AppendText(a, [CR] + b);
            && Lines(Universal(e.text)) == [a, b]
            && e.summary.affectedLines == [1]
  {
    OverwriteLoneCr(a, b);
    AppendLoneCr(a, b);
  }

  /** The `overwrite` half of `CarriageReturnSummaryUndercounts`. */
  lemma OverwriteLoneCr(a: string, b: string)
    requires IsLine(a) && IsLine(b) && b != []
    ensures var t := a + [CR] + b;
            && SplitLines(t) == [a, b]
            && Lines(Universal(OverwriteAll(t).text)) == [a, b]
            && OverwriteAll(t).summary.affectedLines == [1]
  {
    LoneCrReadsAsTwoLines(a, b);
    LoneCrCountsNoNewline(a, b);
    assert Range(1, 2) == [1];
  }

  /** The `append` half of `CarriageReturnSummaryUndercounts`. */
  lemma AppendLoneCr(a: string, b: string)
    requires IsLine(a) && IsLine(b) && a != [] && b != []
    ensures var e := AppendText(a, [CR] + b);
            && Lines(Universal(e.text)) == [a, b]
            && e.summary.affectedLines == [1]
  {
    var e := AppendText(a, [CR] + b);
    assert e.text == a + [CR] + b by {
      assert a + ([CR] + b) == a + [CR] + b;
    }
    assert Lines(Universal(e.text)) == [a, b] by {
      LoneCrReadsAsTwoLines(a, b);
    }
    assert e.summary.affectedLines == [1] by {
      LoneCrCountsNoNewline(a, b);
      assert Range(1, 2) == [1];
    }
  }

  /** Neither line nor the lone `\r` between them holds a `\n`. */
  lemma LoneCrCountsNoNewline(a: string, b: string)
    requires IsLine(a) && IsLine(b)
    ensures Count(a, NL) == 0 && Count([CR] + b, NL) == 0 && Count(a + [CR] + b, NL) == 0
  {
    CountAbsent(a, NL);
    CountAbsent([CR] + b, NL);
    CountAppend(a, [CR] + b, NL);
    assert a + ([CR] + b) == a + [CR] + b;
  }

  /** `a\rb` reads as `a\nb`, which splits into the two lines. */
  lemma LoneCrReadsAsTwoLines(a: string, b: string)
    requires IsLine(a) && IsLine(b) && b != []
    ensures Universal(a + [CR] + b) == a + [NL] + b
    ensures Lines(a + [NL] + b) == [a, b]
  {
    var t := [CR] + b;
    assert a + [CR] + b == a + t;
    UniversalPlainPrefix(a, t);
    assert t[0] == CR && t[1] == b[0] && t[1..] == b;
    UniversalKeepsPlain(b);
    assert a + ([NL] + b) == a + [NL] + b;
    JoinTwo(a, b);
    LinesOfJoined([a, b]);
  }

  /** A line number of 0 is falsy: `line or 1` and `line or 0` treat it
      as missing, so the edit is the one made without a line number. The
      validator refuses it for both line-based modes. */
  lemma ZeroLineIsMissing(before: string, content: string, args: WriteArgs)
    requires args.mode == WriteMode.InsertAfterLine && args.line == Some(0)
    ensures var zero := Edits.InsertAfterLine(before, Some(0), content);
            var none := Edits.InsertAfterLine(before, None, content);
            zero.text == none.text && zero.summary.affectedLines == none.summary.affectedLines
    ensures var zero := Edits.ReplaceRange(before, Some(0), Some(0), content);
            var none := Edits.ReplaceRange(before, None, None, content);
            zero.text == none.text && zero.summary.affectedLines == none.summary.affectedLines
    ensures ValidateModeFields(args) == Invalid(LineRequired)
    ensures ValidateModeFields(args.(mode := WriteMode.ReplaceRange, startLine := Some(0))) == Invalid(BoundsRequired)
  {
  }

  /** Two lines joined: the first, a newline, the second. */
  lemma JoinTwo(a: string, b: string)
    requires IsLine(a) && IsLine(b)
    ensures JoinLines([a, b]) == a + [NL] + b && CR !in JoinLines([a, b])
  {
    assert [a, b][1..] == [b];
    assert JoinWith([b], NL) == b;
  }

  /** Appending to an unterminated last line continues that line, and the
      summary starts there. */
  lemma AppendContinuesLastLine()
    ensures var e := AppendText("a\nb", "c\nd");
            && e.text == "a\nbc\nd"
            && e.summary.affectedLines == [2, 3]
  {
  }

  /** Deleting the last line with empty content can expose an empty line as
      a final newline: neither text ends in one, the result does, and it
      reads back as one line where the line arithmetic promises two. */
  lemma ReplaceExposesEmptyLastLine(a: string, b: string)
    requires IsLine(a) && IsLine(b) && b != []
    ensures var before := JoinLines([a, [], b]);
            var e := Edits.ReplaceRange(before, Some(3), Some(3), []);
            && !EndsWithNewline(before)
            && e.text == a + [NL]
            && EndsWithNewline(e.text)
            && Lines(e.text) == [a]
            && |ReplaceLines(Lines(before), 3, 3, [])| == 2
  {
    LinesOfJoined([a, [], b]);
    assert ReplaceLines([a, [], b], 3, 3, []) == [a, []];
    assert JoinLines([a, []]) == a + [NL] by {
      assert [a, []][1..] == [[]];
      assert JoinWith([[]], NL) == [];
      assert a + [NL] + [] == a + [NL];
    }
    LinesOfTerminated([a]);
  }

  /** Deleting every line of a terminated file with empty content leaves a
      lone newline, which reads back as one empty line, not none. */
  lemma ReplaceAllLeavesNewline(a: string)
    requires IsLine(a)
    ensures var e := Edits.ReplaceRange(a + [NL], Some(1), Some(1), []);
            && e.text == [NL]
            && Lines(e.text) == [[]]
  {
    LinesOfTerminated([a]);
    assert ReplaceLines([a], 1, 1, []) == [];
    LinesOfTerminated([[]]);
  }

  /** An empty file reads as no lines, whatever range is asked for. */
  lemma ReadEmptyExample(root: Path, fs: FileSystem, hash: string -> string, name: string,
                         startLine: Option<int>, endLine: Option<int>)
    requires IsNormal(root) && IsSegment(name)
    requires root + [name] in fs && fs[root + [name]] == []
    ensures ReadFile(root, fs, hash, ReadArgs(name, startLine, endLine, true))
            == ReadOk("empty file", name, 0, hash([]), [])
  {
    NameResolves(root, name);
    assert RelativeTo(root, root + [name]) == name by {
      assert (root + [name])[|root|..] == [name];
    }
  }

  /** Lines without carriage returns, stored joined, read back as those
      lines. */
  lemma StoredLines(ls: seq<string>)
    requires Free(ls, NL) && Free(ls, CR) && |ls| >= 1 && ls[|ls| - 1] != []
    ensures Lines(Universal(JoinLines(ls))) == ls
  {
    JoinWithout(ls, NL, CR);
    UniversalKeepsPlain(JoinLines(ls));
    LinesOfJoined(ls);
  }

  /** Two lines numbered from 2 read back as `2: b` and `3: c`. */
  lemma NumberedFromTwo(b: string, c: string)
    requires IsLine(b) && IsLine(c)
    ensures Lines(JoinLines(NumberLines([b, c], 2))) == ["2: " + b, "3: " + c]
  {
    NumberedReadsBack([b, c], 2);
    var ns := NumberLines([b, c], 2);
    assert NatToDecimal(2) == "2" && NatToDecimal(3) == "3";
    assert ns[0] == "2: " + b && ns[1] == "3: " + c;
    assert ns == ["2: " + b, "3: " + c];
  }

  /** Lines 2 to 9 of a three-line file, numbered, are its lines 2 and 3
      prefixed by their numbers; the count is the whole file's. */
  lemma ReadNumberedExample(root: Path, fs: FileSystem, hash: string -> string, name: string,
                            a: string, b: string, c: string)
    requires IsNormal(root) && IsSegment(name)
    requires IsLine(a) && IsLine(b) && IsLine(c) && c != []
    requires root + [name] in fs && fs[root + [name]] == JoinLines([a, b, c])
    ensures var r := ReadFile(root, fs, hash, ReadArgs(name, Some(2), Some(9), true));
            && r.ReadOk? && r.totalLines == 3
            && Lines(r.content) == ["2: " + b, "3: " + c]
  {
    ReadExampleBody(root, fs, hash, name, a, b, c);
    NumberedFromTwo(b, c);
  }

  /** The read half of `ReadNumberedExample`: the body is lines 2 and 3,
      numbered from 2. */
  lemma ReadExampleBody(root: Path, fs: FileSystem, hash: string -> string, name: string,
                        a: string, b: string, c: string)
    requires IsNormal(root) && IsSegment(name)
    requires IsLine(a) && IsLine(b) && IsLine(c) && c != []
    requires root + [name] in fs && fs[root + [name]] == JoinLines([a, b, c])
    ensures var r := ReadFile(root, fs, hash, ReadArgs(name, Some(2), Some(9), true));
            && r.ReadOk? && r.totalLines == 3
            && r.content == JoinLines(NumberLines([b, c], 2))
  {
    ThreeLinesFree(a, b, c);
    ReadStored(root, fs, hash, ReadArgs(name, Some(2), Some(9), true), [a, b, c]);
    ExampleNumberedBody(a, b, c);
  }

  /** A file stored as the join of lines without carriage returns whose
      last line is not empty reads as those lines: the count is theirs and
      the body is their clamped range. */
  lemma ReadStored(root: Path, fs: FileSystem, hash: string -> string, args: ReadArgs, ls: seq<string>)
    requires IsNormal(root) && IsSegment(args.path)
    requires Free(ls, NL) && Free(ls, CR) && |ls| >= 1 && ls[|ls| - 1] != []
    requires root + [args.path] in fs && fs[root + [args.path]] == JoinLines(ls)
    ensures var r := ReadFile(root, fs, hash, args);
            var (s, e) := ReadBounds(|ls|, args.startLine, args.endLine);
            && r.ReadOk? && r.totalLines == |ls|
            && r.content == Body(ls, s, e, args.withLineNumbers)
  {
    NameResolves(root, args.path);
    StoredLines(ls);
    assert fs[root + [args.path]] != [];
    ReadBody(root, fs, hash, args);
  }

  /** Lines 2 to 9 of three lines, numbered: the last two, numbered from 2. */
  lemma ExampleNumberedBody(a: string, b: string, c: string)
    ensures var (s, e) := ReadBounds(3, Some(2), Some(9));
            Body([a, b, c], s, e, true) == JoinLines(NumberLines([b, c], 2))
  {
    assert ReadBounds(3, Some(2), Some(9)) == (2, 3);
    assert [a, b, c][1..3] == [b, c];
  }

  /** Three lines without newlines or carriage returns. */
  lemma ThreeLinesFree(a: string, b: string, c: string)
    requires IsLine(a) && IsLine(b) && IsLine(c)
    ensures Free([a, b, c], NL) && Free([a, b, c], CR)
  {
  }
}

=== FILE: text.dfy ===
/** Text as the file tools see it: reading with universal newlines,
    splitting at and joining with a separator, `str.splitlines`, newline
    counting and decimal rendering of integers. */
module Text {

  const NL: char := '\n'
  const CR: char := '\r'

  /** What `Path.read_text` returns for the stored text `t`: reading in
      text mode turns each `\r\n` and each lone `\r` into `\n`. Writing
      stores the text as it is. */
  function Universal(t: string): (u: string)
    ensures CR !in u
    ensures |u| == 0 <==> |t| == 0
    decreases |t|
  {
    if |t| == 0 then []
    else if t[0] == CR then [NL] + Universal(if |t| >= 2 && t[1] == NL then t[2..] else t[1..])
    else [t[0]] + Universal(t[1..])
  }

  /** A text without a carriage return reads back exactly as stored; one
      with a carriage return never does. */
  lemma {:induction false} UniversalKeepsPlain(t: string)
    ensures Universal(t) == t <==> CR !in t
    decreases |t|
  {
    if t != [] && t[0] != CR {
      UniversalKeepsPlain(t[1..]);
      assert t == [t[0]] + t[1..];
      assert CR in t <==> CR in t[1..];
    }
  }

  /** A character found in no piece and other than the separator is not in
      their join. */
  lemma {:induction false} JoinWithout(pieces: seq<string>, sep: char, c: char)
    requires Free(pieces, c) && c != sep
    ensures c !in JoinWith(pieces, sep)
  {
    if |pieces| > 1 {
      JoinWithout(pieces[1..], sep, c);
      assert JoinWith(pieces, sep) == pieces[0] + [sep] + JoinWith(pieces[1..], sep);
    }
  }

  /** Number of occurrences of `c` in `t` (`t.count(c)`). */
  function Count(t: string, c: char): nat
  {
    if |t| == 0 then 0 else (if t[0] == c then 1 else 0) + Count(t[1..], c)
  }

  /** A character the text lacks is counted zero times. */
  lemma {:induction false} CountAbsent(t: string, c: char)
    requires c !in t
    ensures Count(t, c) == 0
    decreases |t|
  {
    if |t| > 0 {
      CountAbsent(t[1..], c);
    }
  }

  /** No piece contains the separator. */
  predicate Free(pieces: seq<string>, sep: char)
  {
    forall i :: 0 <= i < |pieces| ==> sep !in pieces[i]
  }

  /** `t.split(sep)`: the pieces between separators, one more than there
      are separators, none containing the separator. */
  function SplitAt(t: string, sep: char): (pieces: seq<string>)
    ensures |pieces| == Count(t, sep) + 1
    ensures Free(pieces, sep)
  {
    if |t| == 0 then [[]]
    else
      var rest := SplitAt(t[1..], sep);
      if t[0] == sep then [[]] + rest
      else [[t[0]] + rest[0]] + rest[1..]
  }

  /** `sep.join(pieces)`. */
  function JoinWith(pieces: seq<string>, sep: char): string
  {
    if |pieces| == 0 then []
    else if |pieces| == 1 then pieces[0]
    else pieces[0] + [sep] + JoinWith(pieces[1..], sep)
  }

  lemma {:induction false} CountAppend(a: string, b: string, c: char)
    ensures Count(a + b, c) == Count(a, c) + Count(b, c)
  {
    if a != [] {
      assert (a + b)[1..] == a[1..] + b;
      CountAppend(a[1..], b, c);
    } else {
      assert a + b == b;
    }
  }

  /** Joining the pieces of a split gives back the text. */
  lemma {:induction false} JoinSplitAt(t: string, sep: char)
    ensures JoinWith(SplitAt(t, sep), sep) == t
  {
    if t != [] {
      var rest := SplitAt(t[1..], sep);
      JoinSplitAt(t[1..], sep);
      assert t == [t[0]] + t[1..];
      if t[0] == sep {
        assert ([[]] + rest)[1..] == rest;
        assert JoinWith([[]] + rest, sep) == [] + [sep] + JoinWith(rest, sep);
      } else {
        JoinConsFirst(t[0], rest, sep);
      }
    }
  }

  /** A character put in front of the first piece comes first in the join. */
  lemma JoinConsFirst(c: char, pieces: seq<string>, sep: char)
    requires |pieces| >= 1
    ensures JoinWith([[c] + pieces[0]] + pieces[1..], sep) == [c] + JoinWith(pieces, sep)
  {
    var ps := [[c] + pieces[0]] + pieces[1..];
    if |pieces| >= 2 {
      assert ps[1..] == pieces[1..];
    }
  }

  /** Joining with one more piece puts a separator before it. */
  lemma {:induction false} JoinSnoc(pieces: seq<string>, x: string, sep: char)
    requires |pieces| >= 1
    ensures JoinWith(pieces + [x], sep) == JoinWith(pieces, sep) + [sep] + x
  {
    if |pieces| == 1 {
      assert (pieces + [x])[1..] == [x];
    } else {
      assert (pieces + [x])[1..] == pieces[1..] + [x];
      JoinSnoc(pieces[1..], x, sep);
    }
  }

  /** A character other than the separator joins the first piece. */
  lemma SplitAtCons(c: char, u: string, sep: char)
    requires c != sep
    ensures SplitAt([c] + u, sep) == [[c] + SplitAt(u, sep)[0]] + SplitAt(u, sep)[1..]
  {
    assert ([c] + u)[1..] == u;
  }

  /** A separator-free prefix glues onto the first piece of a split. */
  lemma {:induction false} SplitAtPrefix(a: string, t: string, sep: char)
    requires sep !in a
    ensures SplitAt(a + t, sep) == [a + SplitAt(t, sep)[0]] + SplitAt(t, sep)[1..]
  {
    var s := SplitAt(t, sep);
    if a == [] {
      assert a + t == t;
      assert a + s[0] == s[0];
      assert s == [s[0]] + s[1..];
    } else {
      SplitAtPrefix(a[1..], t, sep);
      assert a + t == [a[0]] + (a[1..] + t);
      SplitAtCons(a[0], a[1..] + t, sep);
      assert [a[0]] + (a[1..] + s[0]) == a + s[0];
    }
  }

  /** Splitting a join of separator-free pieces gives back the pieces. */
  lemma {:induction false} SplitAtJoin(pieces: seq<string>, sep: char)
    requires |pieces| >= 1 && Free(pieces, sep)
    ensures SplitAt(JoinWith(pieces, sep), sep) == pieces
  {
    if |pieces| == 1 {
      SplitAtPrefix(pieces[0], [], sep);
      assert pieces[0] + [] == pieces[0];
    } else {
      var rest := pieces[1..];
      var j := JoinWith(rest, sep);
      SplitAtJoin(rest, sep);
      assert JoinWith(pieces, sep) == pieces[0] + ([sep] + j);
      SplitAtPrefix(pieces[0], [sep] + j, sep);
      assert ([sep] + j)[1..] == j;
      assert SplitAt([sep] + j, sep) == [[]] + rest;
      assert pieces[0] + [] == pieces[0];
      assert ([[]] + rest)[1..] == rest;
      assert pieces == [pieces[0]] + rest;
    }
  }

  /** The join ends in a separator (or is empty) exactly when the last
      piece is empty. */
  lemma {:induction false} JoinEnd(pieces: seq<string>, sep: char)
    requires |pieces| >= 1 && Free(pieces, sep)
    ensures var j := JoinWith(pieces, sep);
            pieces[|pieces| - 1] == [] <==> (j == [] || j[|j| - 1] == sep)
  {
    var last := pieces[|pieces| - 1];
    if |pieces| >= 2 {
      var init := pieces[..|pieces| - 1];
      assert pieces == init + [last];
      JoinSnoc(init, last, sep);
      assert sep !in last;
    } else {
      assert sep !in last;
    }
  }

  predicate EndsWithNewline(t: string)
  {
    |t| > 0 && t[|t| - 1] == NL
  }

  /** `t.splitlines()` with `'\n'` as the only line break: the pieces of
      `t.split('\n')`, less the empty piece a final newline leaves behind.
      A file with `Count` newlines has that many lines, one more when its
      last line is unterminated. */
  function Lines(t: string): (ls: seq<string>)
    ensures |ls| == Count(t, NL) + (if |t| > 0 && !EndsWithNewline(t) then 1 else 0)
  {
    if |t| == 0 then []
    else
      var all := SplitAt(t, NL);
      if EndsWithNewline(t) then all[..|all| - 1] else all
  }

  /** No line holds a newline. */
  lemma LinesFree(t: string)
    ensures Free(Lines(t), NL)
  {
  }

  /** `"\n".join(ls)`. */
  function JoinLines(ls: seq<string>): string
  {
    JoinWith(ls, NL)
  }

  /** The newline that `Lines` drops: `"\n"` when `t` ends with one. */
  function Terminator(t: string): string
  {
    if EndsWithNewline(t) then [NL] else []
  }

  lemma {:induction false} CountPositive(t: string, c: char)
    requires c in t
    ensures Count(t, c) >= 1
  {
    if t[0] != c {
      assert c in t[1..];
      CountPositive(t[1..], c);
    }
  }

  /** Only the empty text has no lines. */
  lemma LinesEmpty(t: string)
    ensures Lines(t) == [] <==> t == []
  {
    if EndsWithNewline(t) {
      assert NL in t;
      CountPositive(t, NL);
    }
  }

  /** Joining the lines of `t` and adding back the dropped final newline
      reproduces `t` exactly. */
  lemma LinesRoundTrip(t: string)
    ensures JoinLines(Lines(t)) + Terminator(t) == t
  {
    if EndsWithNewline(t) {
      TerminatedRoundTrip(t);
    } else if t != [] {
      JoinSplitAt(t, NL);
    }
  }

  /** The terminated half of `LinesRoundTrip`: the lines, joined, are the
      text less its final newline. */
  lemma TerminatedRoundTrip(t: string)
    requires EndsWithNewline(t)
    ensures JoinLines(Lines(t)) + [NL] == t
  {
    var all := SplitAt(t, NL);
    JoinSplitAt(t, NL);
    LinesEmpty(t);
    var ls := Lines(t);
    JoinEnd(all, NL);
    assert all == ls + [all[|all| - 1]];
    JoinSnoc(ls, [], NL);
  }

  /** The last line of a text that does not end in a newline is not empty. */
  lemma LastLineNonEmpty(t: string)
    requires t != [] && !EndsWithNewline(t)
    ensures var ls := Lines(t); |ls| >= 1 && ls[|ls| - 1] != []
  {
    var all := SplitAt(t, NL);
    JoinSplitAt(t, NL);
    JoinEnd(all, NL);
  }

  /** Lines whose last one is non-empty survive a join and a re-split, and
      their join does not end in a newline. */
  lemma LinesOfJoined(ls: seq<string>)
    requires Free(ls, NL)
    requires ls == [] || ls[|ls| - 1] != []
    ensures Lines(JoinLines(ls)) == ls
    ensures !EndsWithNewline(JoinLines(ls))
  {
    if ls != [] {
      var t := JoinLines(ls);
      SplitAtJoin(ls, NL);
      JoinEnd(ls, NL);
    }
  }

  /** Lines joined and terminated by a newline survive a re-split. */
  lemma LinesOfTerminated(ls: seq<string>)
    requires Free(ls, NL) && |ls| >= 1
    ensures Lines(JoinLines(ls) + [NL]) == ls
  {
    JoinSnoc(ls, [], NL);
    assert JoinLines(ls) + [NL] == JoinLines(ls + [[]]) by {
      assert JoinLines(ls) + [NL] + [] == JoinLines(ls) + [NL];
    }
    assert Free(ls + [[]], NL);
    SplitAtJoin(ls + [[]], NL);
    assert (ls + [[]])[..|ls|] == ls;
  }

  /** The text made of `ls` joined, plus a final newline when `terminated`:
      its lines are `ls` again and it ends in a newline exactly when
      `terminated`, provided an unterminated text does not end in an empty
      line and a terminated one has a line to terminate. */
  lemma LinesOfAssembled(ls: seq<string>, terminated: bool)
    requires Free(ls, NL)
    requires terminated ==> |ls| >= 1
    requires !terminated ==> ls == [] || ls[|ls| - 1] != []
    ensures var t := JoinLines(ls) + (if terminated then [NL] else []);
            Lines(t) == ls && (EndsWithNewline(t) <==> terminated)
  {
    if terminated {
      LinesOfTerminated(ls);
    } else {
      LinesOfJoined(ls);
      assert JoinLines(ls) + [] == JoinLines(ls);
    }
  }

  /** A character the text lacks is in none of its pieces. */
  lemma {:induction false} SplitAtWithout(t: string, sep: char, c: char)
    requires c !in t
    ensures Free(SplitAt(t, sep), c)
  {
    if t != [] {
      assert t == [t[0]] + t[1..];
      SplitAtWithout(t[1..], sep, c);
      var rest := SplitAt(t[1..], sep);
      if t[0] != sep {
        var pieces := [[t[0]] + rest[0]] + rest[1..];
        forall i | 0 <= i < |pieces|
          ensures c !in pieces[i]
        {
          if i > 0 {
            assert pieces[i] == rest[i];
          }
        }
      }
    }
  }

  /** A character the text lacks is in none of its lines. */
  lemma LinesWithout(t: string, c: char)
    requires c !in t
    ensures Free(Lines(t), c)
  {
    if t != [] {
      SplitAtWithout(t, NL, c);
    }
  }

  /** `t.splitlines()` for text that may still hold carriage returns, as a
      tool's raw `content` argument may: `\n`, `\r\n` and a lone `\r` each
      end a line, so no line holds either character, and only the empty
      text has no lines. */
  function SplitLines(t: string): (ls: seq<string>)
    ensures Free(ls, NL) && Free(ls, CR)
    ensures ls == [] <==> t == []
  {
    var u := Universal(t);
    LinesFree(u);
    LinesWithout(u, CR);
    LinesEmpty(u);
    Lines(u)
  }

  /** On text without a carriage return, `SplitLines` is `Lines`. */
  lemma SplitLinesPlain(t: string)
    requires CR !in t
    ensures SplitLines(t) == Lines(t)
  {
    UniversalKeepsPlain(t);
  }

  /** The lines of any text, joined with `\n` and given back a final
      newline when the text ended in a line break, are the text with every
      line break written as `\n`. */
  lemma SplitLinesRoundTrip(t: string)
    ensures JoinLines(SplitLines(t)) + Terminator(Universal(t)) == Universal(t)
  {
    LinesRoundTrip(Universal(t));
  }

  /** A prefix without carriage returns reads as itself, whatever follows. */
  lemma {:induction false} UniversalPlainPrefix(a: string, t: string)
    requires CR !in a
    ensures Universal(a + t) == a + Universal(t)
    decreases |a|
  {
    if a != [] {
      assert (a + t)[0] == a[0] && (a + t)[1..] == a[1..] + t;
      assert CR !in a[1..] by {
        assert a == [a[0]] + a[1..];
      }
      UniversalPlainPrefix(a[1..], t);
      assert a == [a[0]] + a[1..];
    } else {
      assert a + t == t;
    }
  }

  function DigitChar(d: nat): char
    requires d < 10
  {
    ('0' as int + d) as char
  }

  predicate IsDigits(s: string)
  {
    forall i :: 0 <= i < |s| ==> '0' <= s[i] <= '9'
  }

  /** `str(n)` for a natural number: its decimal digits, most significant
      first, with no leading zero. */
  function NatToDecimal(n: nat): (s: string)
    ensures |s| >= 1 && IsDigits(s)
    ensures |s| > 1 ==> s[0] != '0'
  {
    if n < 10 then [DigitChar(n)] else NatToDecimal(n / 10) + [DigitChar(n % 10)]
  }

  /** The number a string of decimal digits denotes. */
  function DecimalValue(s: string): nat
    requires IsDigits(s)
  {
    if |s| == 0 then 0
    else DecimalValue(s[..|s| - 1]) * 10 + (s[|s| - 1] as int - '0' as int)
  }

  /** Rendering a number in decimal loses nothing: reading the digits back
      gives the number. */
  lemma {:induction false} DecimalRoundTrip(n: nat)
    ensures DecimalValue(NatToDecimal(n)) == n
  {
    if n >= 10 {
      var s := NatToDecimal(n);
      DecimalRoundTrip(n / 10);
      assert s[..|s| - 1] == NatToDecimal(n / 10);
    }
  }

  /** `str(i)` for any integer. */
  function IntToDecimal(i: int): string
  {
    if i < 0 then "-" + NatToDecimal(-i) else NatToDecimal(i)
  }

  /** An integer's decimal form reads back to the integer: digits alone for
      a non-negative one, a minus sign and the magnitude's digits
      otherwise. */
  lemma IntDecimalRoundTrip(i: int)
    ensures var s := IntToDecimal(i);
            && (i >= 0 ==> IsDigits(s) && DecimalValue(s) == i)
            && (i < 0 ==> |s| >= 2 && s[0] == '-' && IsDigits(s[1..]) && DecimalValue(s[1..]) == -i)
  {
    if i >= 0 {
      DecimalRoundTrip(i);
    } else {
      var s := IntToDecimal(i);
      assert s[1..] == NatToDecimal(-i);
      DecimalRoundTrip(-i);
    }
  }
}

=== FILE: write_file.dfy ===
/** The `write_file` tool: argument validation, the optimistic lock, the
    four edit modes, the no-op short cut and the backup written before the
    target. A call does not change the filesystem itself: it returns its
    result and the file writes it performs, in order; `Commit` applies them. */
module WriteTool {
  import opened PySemantics
  import opened Text
  import opened Paths
  import opened Edits
  import opened ReadTool

  datatype WriteMode = Overwrite | Append | InsertAfterLine | ReplaceRange

  datatype WriteArgs = WriteArgs(
    path: string,
    mode: WriteMode,
    content: string,
    baseSha256: Option<string>,
    line: Option<int>,
    startLine: Option<int>,
    endLine: Option<int>,
    makeBackup: bool)

  datatype WriteResult =
    | Applied(path: string, newSha256: string, summaries: seq<EditSummary>)
    | Conflict(path: string)
    | NoOp(path: string)
    | Failed(path: string, message: string)
  {
    function Status(): string
    {
      match this
      case Applied(_, _, _) => "ok"
      case Conflict(_) => "conflict"
      case NoOp(_) => "noop"
      case Failed(_, _) => "error"
    }
  }

  /** One whole-file write: `target` receives `text`. */
  datatype FileWrite = FileWrite(target: Path, text: string)

  /** What a call returns and, in order, the writes it performs. */
  datatype WriteCall = WriteCall(result: WriteResult, writes: seq<FileWrite>)

  /** A call through the tool: arguments that break the schema are rejected
      before the body runs, and no result record is produced. */
  datatype ToolOutcome = Rejected(reason: string) | Ran(call: WriteCall)

  datatype Validation = Valid | Invalid(message: string)

  /** The filesystem after the writes, applied first to last. */
  function Commit(fs: FileSystem, writes: seq<FileWrite>): FileSystem
    decreases |writes|
  {
    if writes == [] then fs else Commit(fs[writes[0].target := writes[0].text], writes[1..])
  }

  /** The `ge=1` bound on every line-number argument that is given. */
  predicate LineArgsInBounds(args: WriteArgs)
  {
    && (args.line.Some? ==> args.line.value >= 1)
    && (args.startLine.Some? ==> args.startLine.value >= 1)
    && (args.endLine.Some? ==> args.endLine.value >= 1)
  }

  /** The mode-specific check: `insert_after_line` needs a line, and
      `replace_range` needs both bounds. Nothing compares the bounds. */
  function ValidateModeFields(args: WriteArgs): (v: Validation)
    ensures v.Valid? <==>
              && (args.mode == InsertAfterLine ==> Truthy(args.line))
              && (args.mode == ReplaceRange ==> Truthy(args.startLine) && Truthy(args.endLine))
    ensures args.mode == Overwrite || args.mode == Append ==> v.Valid?
    ensures v.Invalid? ==>
              v.message == (if args.mode == InsertAfterLine then LineRequired else BoundsRequired)
  {
    if args.mode == InsertAfterLine && !Truthy(args.line) then
      Invalid(LineRequired)
    else if args.mode == ReplaceRange && (!Truthy(args.startLine) || !Truthy(args.endLine)) then
      Invalid(BoundsRequired)
    else Valid
  }

  /** The validator's message when `insert_after_line` lacks a line. */
  const LineRequired: string := "insert_after_line 모드에는 'line'이 필요합니다."

  /** The validator's message when `replace_range` lacks a bound. */
  const BoundsRequired: string := "replace_range 모드에는 'start_line'과 'end_line'이 필요합니다."

  /** The lock: a non-empty base digest that differs from the digest of an
      existing file means the file changed since the caller read it. */
  predicate Stale(baseSha256: Option<string>, present: bool, currentSha256: string)
  {
    TruthyText(baseSha256) && present && baseSha256.value != currentSha256
  }

  /** The new text and summary of the requested mode, applied to `before`. */
  function ApplyMode(before: string, args: WriteArgs): Edited
  {
    match args.mode
    case Overwrite => OverwriteAll(args.content)
    case Append => AppendText(before, args.content)
    case InsertAfterLine => Edits.InsertAfterLine(before, args.line, args.content)
    case ReplaceRange => Edits.ReplaceRange(before, args.startLine, args.endLine, args.content)
  }

  /** The text `write_file` starts from: the file read with universal
      newlines, or `""` for a missing file. */
  function OldText(fs: FileSystem, p: Path): string
  {
    if p in fs then Universal(fs[p]) else []
  }

  /** The body of `write_file`, once its arguments are valid. A missing file
      reads as `""`. A stale lock, an unchanged text and an error write
      nothing; otherwise the old text goes to the backup, when one is asked
      for and the file existed, before the new text goes to the target.
      Errors report the path as given; the other outcomes report it
      relative to the root. */
  function WriteFile(root: Path, fs: FileSystem, hash: string -> string, args: WriteArgs): (c: WriteCall)
    requires IsNormal(root)
    ensures var res := ResolveSafe(root, args.path);
            c.result.Failed? <==> res.Escaped? || res.path == root
    ensures var res := ResolveSafe(root, args.path);
            && (res.Escaped? ==> c.result == Failed(args.path, res.message))
            && (res.Resolved? && res.path == root ==> c.result == Failed(args.path, DirectoryMessage(root)))
            && (!c.result.Failed? ==> c.result.path == RelativeTo(root, res.path))
    ensures var res := ResolveSafe(root, args.path);
            c.result.Conflict? <==>
              && res.Resolved? && res.path != root && res.path in fs
              && TruthyText(args.baseSha256) && args.baseSha256.value != hash(OldText(fs, res.path))
    ensures !c.result.Applied? ==> c.writes == []
    ensures c.result.Applied? ==> ResolveSafe(root, args.path).Resolved?
    ensures c.result.Applied? ==>
              var p := ResolveSafe(root, args.path).path;
              var before := OldText(fs, p);
              var after := ApplyMode(before, args).text;
              && p != root
              && after != before
              && c.result.newSha256 == hash(after)
              && c.result.summaries == [ApplyMode(before, args).summary]
              && c.writes == (if args.makeBackup && p in fs then [FileWrite(BackupOf(p), before)] else [])
                             + [FileWrite(p, after)]
  {
    match ResolveSafe(root, args.path)
    case Escaped(msg) => WriteCall(Failed(args.path, msg), [])
    case Resolved(p) =>
      if p == root then WriteCall(Failed(args.path, DirectoryMessage(p)), [])
      else
        var present := p in fs;
        var before := OldText(fs, p);
        var rel := RelativeTo(root, p);
        if Stale(args.baseSha256, present, hash(before)) then WriteCall(Conflict(rel), [])
        else
          var edited := ApplyMode(before, args);
          if edited.text == before then WriteCall(NoOp(rel), [])
          else
            var backup := if args.makeBackup && present then [FileWrite(BackupOf(p), before)] else [];
            WriteCall(Applied(rel, hash(edited.text), [edited.summary]), backup + [FileWrite(p, edited.text)])
  }

  /** The tool as called: arguments that break a `ge=1` bound or the mode
      rules are rejected before the body runs, so no file is touched; the
      mode rules' message is kept. Valid arguments run the body. */
  function WriteFileTool(root: Path, fs: FileSystem, hash: string -> string, args: WriteArgs): (o: ToolOutcome)
    requires IsNormal(root)
    ensures o.Rejected? <==> !LineArgsInBounds(args) || ValidateModeFields(args).Invalid?
    ensures LineArgsInBounds(args) && ValidateModeFields(args).Invalid? ==>
              o == Rejected(ValidateModeFields(args).message)
    ensures o.Ran? ==> o.call == WriteFile(root, fs, hash, args)
  {
    if !LineArgsInBounds(args) then Rejected("line numbers must be >= 1")
    else match ValidateModeFields(args)
      case Invalid(msg) => Rejected(msg)
      case Valid => Ran(WriteFile(root, fs, hash, args))
  }

  /** A path no write targets keeps its presence and its text. */
  lemma {:induction false} CommitUntouched(fs: FileSystem, writes: seq<FileWrite>, q: Path)
    requires forall i :: 0 <= i < |writes| ==> writes[i].target != q
    ensures var after := Commit(fs, writes);
            (q in after <==> q in fs) && (q in fs ==> after[q] == fs[q])
    decreases |writes|
  {
    if writes != [] {
      assert writes[0].target != q;
      CommitUntouched(fs[writes[0].target := writes[0].text], writes[1..], q);
    }
  }

  /** A path some write targets ends up with the text of its last write. */
  lemma {:induction false} CommitLast(fs: FileSystem, writes: seq<FileWrite>, q: Path)
    requires exists i :: 0 <= i < |writes| && writes[i].target == q
    ensures var after := Commit(fs, writes);
            q in after && after[q] == writes[LastWriteTo(writes, q)].text
    decreases |writes|
  {
    var fs1 := fs[writes[0].target := writes[0].text];
    var rest := writes[1..];
    if exists i :: 0 <= i < |rest| && rest[i].target == q {
      CommitLast(fs1, rest, q);
      LastWriteAfter(writes, q);
      var m := LastWriteTo(rest, q);
      assert writes[m + 1] == rest[m];
    } else {
      CommitUntouched(fs1, rest, q);
      forall i | 1 <= i < |writes|
        ensures writes[i].target != q
      {
        assert writes[i] == rest[i - 1];
      }
      LastWriteFirst(writes, q);
    }
  }

  /** Only the given writes' targets change, and each ends up with the text
      of its last write. */
  lemma CommitEffect(fs: FileSystem, writes: seq<FileWrite>, q: Path)
    ensures var after := Commit(fs, writes);
            (exists i :: 0 <= i < |writes| && writes[i].target == q) ==>
              && q in after
              && after[q] == writes[LastWriteTo(writes, q)].text
    ensures var after := Commit(fs, writes);
            (forall i :: 0 <= i < |writes| ==> writes[i].target != q) ==>
              (q in after <==> q in fs) && (q in fs ==> after[q] == fs[q])
  {
    if exists i :: 0 <= i < |writes| && writes[i].target == q {
      CommitLast(fs, writes, q);
    } else {
      CommitUntouched(fs, writes, q);
    }
  }

  /** The index of the last write to `q`. */
  function LastWriteTo(writes: seq<FileWrite>, q: Path): (i: nat)
    requires exists i :: 0 <= i < |writes| && writes[i].target == q
    ensures i < |writes| && writes[i].target == q
    ensures forall j :: i < j < |writes| ==> writes[j].target != q
    decreases |writes|
  {
    if writes[|writes| - 1].target == q then |writes| - 1
    else
      var init := writes[..|writes| - 1];
      assert exists i :: 0 <= i < |init| && init[i].target == q by {
        var i :| 0 <= i < |writes| && writes[i].target == q;
        assert init[i].target == q;
      }
      LastWriteTo(init, q)
  }

  /** When a later write than the first targets `q`, the last write to
      `q` is the last write to it among the rest, shifted by one. */
  lemma LastWriteAfter(writes: seq<FileWrite>, q: Path)
    requires |writes| >= 1
    requires exists i :: 0 <= i < |writes[1..]| && writes[1..][i].target == q
    ensures exists i :: 0 <= i < |writes| && writes[i].target == q
    ensures LastWriteTo(writes, q) == LastWriteTo(writes[1..], q) + 1
  {
    var i :| 0 <= i < |writes[1..]| && writes[1..][i].target == q;
    assert writes[i + 1].target == q;
    var k := LastWriteTo(writes, q);
    var m := LastWriteTo(writes[1..], q);
    assert writes[m + 1].target == q;
    assert k >= m + 1;
  }

  /** When only the first write targets `q`, it is the last write to `q`. */
  lemma LastWriteFirst(writes: seq<FileWrite>, q: Path)
    requires |writes| >= 1 && writes[0].target == q
    requires forall i :: 1 <= i < |writes| ==> writes[i].target != q
    ensures exists i :: 0 <= i < |writes| && writes[i].target == q
    ensures LastWriteTo(writes, q) == 0
  {
  }

  /** After an applied write the target holds the new text, the backup (when
      asked for, for a file that existed) holds the old text, and every
      other file is as it was. Any other outcome leaves the filesystem as
      it was. */
  lemma WriteEffect(root: Path, fs: FileSystem, hash: string -> string, args: WriteArgs)
    requires IsNormal(root)
    ensures var c := WriteFile(root, fs, hash, args);
            !c.result.Applied? ==> Commit(fs, c.writes) == fs
    ensures var c := WriteFile(root, fs, hash, args);
            c.result.Applied? ==>
              var p := ResolveSafe(root, args.path).path;
              var before := OldText(fs, p);
              var after := Commit(fs, c.writes);
              && p in after && after[p] == ApplyMode(before, args).text && after[p] != before
              && (args.makeBackup && p in fs ==> BackupOf(p) in after && after[BackupOf(p)] == before)
              && (forall q :: q != p && q != BackupOf(p) ==>
                    (q in after <==> q in fs) && (q in fs ==> after[q] == fs[q]))
  {
    var c := WriteFile(root, fs, hash, args);
    if c.result.Applied? {
      var p := ResolveSafe(root, args.path).path;
      var before := OldText(fs, p);
      var after := ApplyMode(before, args).text;
      if args.makeBackup && p in fs {
        CommitTwo(fs, FileWrite(BackupOf(p), before), FileWrite(p, after));
      } else {
        CommitOne(fs, FileWrite(p, after));
      }
    }
  }

  /** Committing one write updates its target. */
  lemma CommitOne(fs: FileSystem, w: FileWrite)
    ensures Commit(fs, [w]) == fs[w.target := w.text]
  {
    assert [w][1..] == [];
  }

  /** Committing two writes updates the first target, then the second. */
  lemma CommitTwo(fs: FileSystem, w1: FileWrite, w2: FileWrite)
    ensures Commit(fs, [w1] + [w2]) == fs[w1.target := w1.text][w2.target := w2.text]
  {
    assert ([w1] + [w2])[1..] == [w2];
    CommitOne(fs[w1.target := w1.text], w2);
  }

  /** Backup before target: however many of an applied call's writes have
      happened, the target has only changed once the backup holds the old
      text as read, so an interruption never loses the only copy of it
      (short of the carriage returns reading drops). */
  lemma BackupPrecedesTarget(root: Path, fs: FileSystem, hash: string -> string, args: WriteArgs, k: nat)
    requires IsNormal(root)
    requires WriteFile(root, fs, hash, args).result.Applied?
    requires args.makeBackup && ResolveSafe(root, args.path).path in fs
    requires k <= |WriteFile(root, fs, hash, args).writes|
    ensures var p := ResolveSafe(root, args.path).path;
            var mid := Commit(fs, WriteFile(root, fs, hash, args).writes[..k]);
            && p in mid
            && (mid[p] != fs[p] ==> BackupOf(p) in mid && mid[BackupOf(p)] == Universal(fs[p]))
  {
    var p := ResolveSafe(root, args.path).path;
    var ws := WriteFile(root, fs, hash, args).writes;
    var before := OldText(fs, p);
    var w1 := FileWrite(BackupOf(p), before);
    assert ws == [w1] + [FileWrite(p, ApplyMode(before, args).text)];
    if k == 0 {
      assert ws[..k] == [];
    } else if k == 1 {
      assert ws[..k] == [w1];
      CommitOne(fs, w1);
    } else {
      assert ws[..k] == ws;
      CommitTwo(fs, w1, ws[1]);
    }
  }

  /** An unchanged text is a no-op exactly: nothing is written, not even
      the backup. */
  lemma NoOpWritesNothing(root: Path, fs: FileSystem, hash: string -> string, args: WriteArgs)
    requires IsNormal(root)
    requires var res := ResolveSafe(root, args.path); res.Resolved? && res.path != root
    ensures var p := ResolveSafe(root, args.path).path;
            var before := OldText(fs, p);
            var c := WriteFile(root, fs, hash, args);
            !Stale(args.baseSha256, p in fs, hash(before)) ==>
              (c.result.NoOp? <==> ApplyMode(before, args).text == before)
    ensures var c := WriteFile(root, fs, hash, args);
            c.result.NoOp? ==> c.writes == [] && Commit(fs, c.writes) == fs
  {
  }

  /** A missing file, or a missing or empty base digest, never conflicts. */
  lemma LockNeedsFileAndDigest(root: Path, fs: FileSystem, hash: string -> string, args: WriteArgs)
    requires IsNormal(root)
    requires !TruthyText(args.baseSha256) || (var res := ResolveSafe(root, args.path); res.Resolved? && res.path !in fs)
    ensures !WriteFile(root, fs, hash, args).result.Conflict?
  {
  }

  /** Handing back the digest a read returned, for the file as it still is,
      never conflicts. */
  lemma ReadDigestPassesLock(root: Path, fs: FileSystem, hash: string -> string, rargs: ReadArgs, wargs: WriteArgs)
    requires IsNormal(root)
    requires wargs.path == rargs.path
    requires ReadFile(root, fs, hash, rargs).ReadOk?
    requires wargs.baseSha256 == Some(ReadFile(root, fs, hash, rargs).sha256)
    ensures !WriteFile(root, fs, hash, wargs).result.Conflict?
  {
  }

  /** The digest tells `x` and `y` apart, if they differ: no collision. */
  predicate Separates(hash: string -> string, x: string, y: string)
  {
    x != y ==> hash(x) != hash(y)
  }

  /** Once a locked write has changed the file as read, its base digest is
      stale: a second write presenting it conflicts and writes nothing,
      provided the digest is not empty and does not collide. */
  lemma StaleDigestConflicts(root: Path, fs: FileSystem, hash: string -> string, first: WriteArgs, second: WriteArgs)
    requires IsNormal(root)
    requires first.path == second.path && first.baseSha256 == second.baseSha256
    requires WriteFile(root, fs, hash, first).result.Applied?
    requires var p := ResolveSafe(root, first.path).path;
             var before := OldText(fs, p);
             var reread := Universal(ApplyMode(before, first).text);
             && p in fs
             && first.baseSha256 == Some(hash(before))
             && hash(before) != []
             && reread != before
             && Separates(hash, reread, before)
    ensures var fs' := Commit(fs, WriteFile(root, fs, hash, first).writes);
            var c := WriteFile(root, fs', hash, second);
            c.result.Conflict? && Commit(fs', c.writes) == fs'
  {
    WriteEffect(root, fs, hash, first);
  }

  /** The other side of `StaleDigestConflicts`: a write that changed only
      what reading undoes (carriage returns) leaves the file as read as it
      was, so the same base digest passes the lock again. */
  lemma UnchangedReadPassesLock(root: Path, fs: FileSystem, hash: string -> string, first: WriteArgs, second: WriteArgs)
    requires IsNormal(root)
    requires first.path == second.path && first.baseSha256 == second.baseSha256
    requires WriteFile(root, fs, hash, first).result.Applied?
    requires var p := ResolveSafe(root, first.path).path;
             var before := OldText(fs, p);
             && first.baseSha256 == Some(hash(before))
             && Universal(ApplyMode(before, first).text) == before
    ensures var fs' := Commit(fs, WriteFile(root, fs, hash, first).writes);
            !WriteFile(root, fs', hash, second).result.Conflict?
  {
    WriteEffect(root, fs, hash, first);
  }

  /** An overwrite reads back: reading the whole file afterwards gives the
      written content as read with universal newlines, less a final
      newline, with its line count and its digest. Content without a
      carriage return reads back exactly, under the digest the write
      returned. */
  lemma OverwriteReadsBack(root: Path, fs: FileSystem, hash: string -> string, args: WriteArgs)
    requires IsNormal(root)
    requires args.mode == Overwrite
    requires WriteFile(root, fs, hash, args).result.Applied?
    ensures var c := WriteFile(root, fs, hash, args);
            var r := ReadFile(root, Commit(fs, c.writes), hash, ReadArgs(args.path, None, None, false));
            var u := Universal(args.content);
            && r.ReadOk?
            && r.sha256 == hash(u)
            && r.totalLines == |Lines(u)|
            && r.content == JoinLines(Lines(u))
            && r.content + Terminator(u) == u
            && (CR !in args.content ==> r.sha256 == c.result.newSha256 && r.content + Terminator(args.content) == args.content)
  {
    WriteEffect(root, fs, hash, args);
    var u := Universal(args.content);
    LinesRoundTrip(u);
    LinesEmpty(u);
    UniversalKeepsPlain(args.content);
    var lines := Lines(u);
    if |lines| >= 1 {
      assert lines[0..|lines|] == lines;
    }
  }

  /** The digest an overwrite returns does not serve as the next base digest
      when the content holds a carriage return: the lock compares it with
      the digest of the file as read, where the carriage returns are gone,
      so the follow-up write conflicts. */
  lemma ReturnedDigestConflicts(root: Path, fs: FileSystem, hash: string -> string, args: WriteArgs, next: WriteArgs)
    requires IsNormal(root)
    requires args.mode == Overwrite && WriteFile(root, fs, hash, args).result.Applied?
    requires CR in args.content
    requires hash(args.content) != [] && hash(args.content) != hash(Universal(args.content))
    requires next.path == args.path && next.baseSha256 == Some(WriteFile(root, fs, hash, args).result.newSha256)
    ensures var after := Commit(fs, WriteFile(root, fs, hash, args).writes);
            var r := ReadFile(root, after, hash, ReadArgs(args.path, None, None, false));
            && r.ReadOk? && r.sha256 != WriteFile(root, fs, hash, args).result.newSha256
            && WriteFile(root, after, hash, next).result.Conflict?
  {
    WriteEffect(root, fs, hash, args);
  }
}
